=== FILE: README.md ===
# course-cloud enrollment core, modelled in Dafny

This project models the bookkeeping at the centre of the course-cloud
micro-services, a university course-selection system. It covers:

- **enrollment service**: the `Enrollment` entity, its repository queries,
  `StudentService`, and `EnrollmentService` with its guard chain for `enroll`
  and its ACTIVE → DROPPED `unenroll`. It also covers the variant of
  `EnrollmentService` that writes the course's `enrolled` counter back to the
  catalog.
- **catalog service**: the `Course` entity, `CourseRepository`,
  `CourseService`, the partial-versus-full dispatch of
  `CourseController.updateCourse`, and the `ApiResponse` factories.
- **user service**: the `login`, `register` and `initTestUsers` rules of
  `AuthController`.
- **gateway**: the decision chain of `JwtAuthenticationFilter`.

Every repository is a class holding its table as a sequence of rows in
insertion order. The derived queries are functions over that sequence, built
from one generic filter, count and first-match lookup (module `Tables`).

`save` is modelled as JPA does it:

- A new id is inserted. The managed copy runs its `@PrePersist` hook first.
- A known id is merged. Columns marked `updatable = false` keep their stored
  values.
- Unique indexes and NOT NULL columns reject a write and leave the table as it
  was.

Ids of students and courses can come from the request body, so `create` with
an id that is already stored merges over that row rather than adding one; the
`Create` contracts state both outcomes.

Entities whose fields the code sets one by one (`Enrollment`, `Course`) are
classes with nullable fields. Services are classes whose methods change the
tables they hold.

What lies outside the model enters as parameters:

- The catalog's reply to `GET /api/courses/{id}` is a parameter:
  `CourseView(capacity, enrolled)`, `Missing` (no data, or not found) or
  `Unreachable`.
- Whether the write-back of the counter succeeds is a boolean parameter.
- The calls made to the catalog are recorded in a ghost log. The counter the
  catalog holds is a ghost map.
- Random UUIDs and the current time are parameters (`freshId`, `now`).
- Token issuance, token validation and claim extraction are function
  parameters.

Points where the model differs from the code's apparent intent (each is stated
and proved as a lemma):

- **Re-enrolling after a drop fails at the storage layer.** The duplicate
  guard `existsByCourseIdAndStudentId` counts only ACTIVE rows, but the unique
  key `uk_course_student` covers every status. So re-enrolling in a dropped
  course passes every guard and is then rejected by the table
  (`ReenrollAfterDropRejected`). The model follows the code: the key is
  (course_id, student_id) regardless of status.
- **The Feign path cannot enrol in a course whose id the catalog generated.**
  It requires the course id to parse as a `long`, while the `Course()`
  constructor assigns a random UUID, which never parses (`UuidIsNotALong`).
  A client may still send its own id when it creates a course, and a numeric
  one does parse.
- **The counter variant can raise the catalog counter for a failed
  enrollment.** The enrollment id is assigned by the constructor, so `save`
  merges and the row is only inserted when the transaction commits, after the
  count plus one has been written back. When the insert then breaks the pair
  key (re-enrolling after a drop), the enrollment fails but the catalog keeps
  the raised count: it is one more than the ACTIVE rows
  (`EnrollmentService.EnrollWithCount`).
- **Renumbering a student can orphan enrollments.** `StudentService.update`
  lets a student who holds ACTIVE enrollments change their student number,
  which orphans those enrollments (`RenumberingOrphansActiveEnrollment`).
  `deleteById`, by contrast, keeps them attached
  (`DeleteKeepsActiveRowsAttached`).
- **A full `PUT` of a course resets `enrolled`.** When the body does not
  mention `enrolled`, it is reset to 0, the `Course()` default, rather than
  kept. The same update clears the instructor.

## Model

| member | source | states |
|---|---|---|
| `Tables.IndexWhere` | enrollment-service/src/main/java/com/zjgsu/wy/enrollment/repository/EnrollmentRepository.java:42 | the first matching row: every earlier row fails the filter, and no match means no row satisfies it (the `Optional` queries) |
| `Tables.Filter` | enrollment-service/src/main/java/com/zjgsu/wy/enrollment/repository/EnrollmentRepository.java:22-37 | a list query returns only matching rows and every matching row |
| `Tables.CountIsFilterLength` | enrollment-service/src/main/java/com/zjgsu/wy/enrollment/repository/EnrollmentRepository.java:53-59 | a count query equals the length of the corresponding list query, by induction over the table |
| `Tables.CountPositive` | enrollment-service/src/main/java/com/zjgsu/wy/enrollment/repository/EnrollmentRepository.java:47-48 | `COUNT(...) > 0` holds exactly when some row matches |
| `Tables.CountAppend` | enrollment-service/src/main/java/com/zjgsu/wy/enrollment/repository/EnrollmentRepository.java:53-54 | inserting a row raises a count by one exactly when the row matches |
| `Tables.CountUpdate` | enrollment-service/src/main/java/com/zjgsu/wy/enrollment/repository/EnrollmentRepository.java:53-54 | replacing a row changes a count only by the change of that row |
| `Tables.RemoveAt` | enrollment-service/src/main/java/com/zjgsu/wy/enrollment/service/StudentService.java:103 | a delete by key keeps every other row, in order |
| `Strings.ToUpper` | catalog-service/src/main/java/com/zjgsu/wy/catalog/repository/CourseRepository.java:38 | upper-casing keeps the length, turns each ASCII small letter into its capital and keeps every other character |
| `Strings.ToUpperIdempotent` | catalog-service/src/main/java/com/zjgsu/wy/catalog/repository/CourseRepository.java:38 | upper-casing an already upper-cased string changes nothing, so `UPPER` on both sides of the comparison is stable |
| `Strings.EmptyKeywordMatches` | catalog-service/src/main/java/com/zjgsu/wy/catalog/repository/CourseRepository.java:38 | the empty keyword is contained in every title |
| `Strings.ContainsIgnoreCaseOfUpper` | catalog-service/src/main/java/com/zjgsu/wy/catalog/repository/CourseRepository.java:38 | case-insensitive containment does not depend on the case of the keyword |
| `Strings.ParseLong` | enrollment-service/src/main/java/com/zjgsu/wy/enrollment/service/EnrollmentService.java:69-73 | `Long.parseLong`: a parsed value lies in the `long` range and comes from an optional sign plus decimal digits; an unsigned, `+` or `-` digit string parses to its (negated) decimal value exactly when that value is in range |
| `Strings.DecimalString` | user-service/src/main/java/com/zjgsu/wy/user/controller/AuthController.java:52 | the decimal form of a user id is a non-empty string of digits |
| `Strings.DecimalStringValue` | enrollment-service/src/main/java/com/zjgsu/wy/enrollment/service/EnrollmentService.java:78 | reading back the decimal digits of `n` gives `n`, by induction |
| `Strings.ParseLongOfLongToString` | enrollment-service/src/main/java/com/zjgsu/wy/enrollment/service/EnrollmentService.java:70-78 | parsing the decimal form of any `long` gives it back, so the id the client sends names the parsed course |
| `Strings.UuidIsNotALong` | catalog-service/src/main/java/com/zjgsu/wy/catalog/model/Course.java:61 | a 36-character id with a dash at position 8, the form the `Course()` constructor generates, never parses as a `long`, so that enrollment path rejects every course whose id the catalog generated |
| `Strings.StartsWithExtend` | gateway-service/src/main/java/com/zjgsu/wy/gateway/filter/JwtAuthenticationFilter.java:103 | a string keeps its prefixes when text is appended |
| `Strings.DropPrefix` | gateway-service/src/main/java/com/zjgsu/wy/gateway/filter/JwtAuthenticationFilter.java:61 | removing the first seven characters of "Bearer " + token yields the token |
| `EnrollmentEntity.Enrollment.constructor` | enrollment-service/src/main/java/com/zjgsu/wy/enrollment/model/Enrollment.java:46-49 | `new Enrollment()` has the fresh id and status ACTIVE, and nothing else set |
| `EnrollmentEntity.Enrollment.ForPair` | enrollment-service/src/main/java/com/zjgsu/wy/enrollment/model/Enrollment.java:52-57 | `new Enrollment(courseId, studentId)` has the fresh id, the pair and status ACTIVE |
| `EnrollmentEntity.Enrollment.OnCreate` | enrollment-service/src/main/java/com/zjgsu/wy/enrollment/model/Enrollment.java:59-67 | fills a null `enrolledAt` with now and a null status with ACTIVE; set values are never overwritten |
| `EnrollmentEntity.Enrollment.Row` | enrollment-service/src/main/java/com/zjgsu/wy/enrollment/model/Enrollment.java:28-43 | the row written for a complete entity carries exactly its field values |
| `EnrollmentRepository.UniquePairsGiveAtMostOneActive` | enrollment-service/src/main/java/com/zjgsu/wy/enrollment/model/Enrollment.java:13-14 | the (course_id, student_id) key allows at most one ACTIVE row per pair |
| `EnrollmentRepository.FindById` | enrollment-service/src/main/java/com/zjgsu/wy/enrollment/service/EnrollmentService.java:49-52 | the row with that id, or none exactly when no row has it |
| `EnrollmentRepository.FindByCourseId` | enrollment-service/src/main/java/com/zjgsu/wy/enrollment/repository/EnrollmentRepository.java:22 | every row of the course, of any status, and nothing else |
| `EnrollmentRepository.FindByStudentId` | enrollment-service/src/main/java/com/zjgsu/wy/enrollment/repository/EnrollmentRepository.java:27 | every row of the student, of any status, and nothing else |
| `EnrollmentRepository.FindByCourseIdAndStatus` | enrollment-service/src/main/java/com/zjgsu/wy/enrollment/repository/EnrollmentRepository.java:32 | exactly the rows that match both the course and the status |
| `EnrollmentRepository.FindByStudentIdAndStatus` | enrollment-service/src/main/java/com/zjgsu/wy/enrollment/repository/EnrollmentRepository.java:37 | exactly the rows that match both the student and the status |
| `EnrollmentRepository.FindByCourseIdAndStudentIdAndStatus` | enrollment-service/src/main/java/com/zjgsu/wy/enrollment/repository/EnrollmentRepository.java:42 | a row matching all three filters, or none exactly when no row does |
| `EnrollmentRepository.ExistsByCourseIdAndStudentIdIff` | enrollment-service/src/main/java/com/zjgsu/wy/enrollment/repository/EnrollmentRepository.java:47-48 | the duplicate guard holds iff some row has the course, the student and status ACTIVE |
| `EnrollmentRepository.CountByCourseIdIsActiveListSize` | enrollment-service/src/main/java/com/zjgsu/wy/enrollment/repository/EnrollmentRepository.java:53-54 | `countByCourseId` is the number of ACTIVE rows of the course, not of all its rows |
| `EnrollmentRepository.CountByStudentIdAndStatusIsListSize` | enrollment-service/src/main/java/com/zjgsu/wy/enrollment/repository/EnrollmentRepository.java:37-59 | `countByStudentIdAndStatus` equals the size of `findByStudentIdAndStatus` for the same arguments |
| `EnrollmentRepository.WriteRow` | enrollment-service/src/main/java/com/zjgsu/wy/enrollment/model/Enrollment.java:13-14 | an insert at the end for a new id, a replacement at the first row with that id otherwise; each succeeds exactly when no other row, of any status, holds the pair; a valid table stays valid |
| `EnrollmentRepository.ReplaceKeepsValid` | enrollment-service/src/main/java/com/zjgsu/wy/enrollment/model/Enrollment.java:41 | rewriting a row with the same id and pair, e.g. a status change, is accepted and keeps the table valid |
| `EnrollmentService.ReplaceKeepsValidIfValid` | enrollment-service/src/main/java/com/zjgsu/wy/enrollment/service/EnrollmentService.java:129-131 | a status change in place keeps a valid table valid, whatever the table |
| `EnrollmentRepository.EnrollmentTable.Save` | enrollment-service/src/main/java/com/zjgsu/wy/enrollment/model/Enrollment.java:13-67 | insert runs `onCreate` on the managed copy; merge keeps the non-updatable `enrolledAt`; NOT NULL and the pair key reject and leave the table unchanged |
| `StudentService.WriteStudent` | enrollment-service/src/main/java/com/zjgsu/wy/enrollment/model/Student.java:17-18 | the unique student number and e-mail indexes: the write succeeds iff neither is held by another row, and keeps the table valid |
| `StudentService.IndexOr` | enrollment-service/src/main/java/com/zjgsu/wy/enrollment/service/StudentService.java:38-40 | the position of the row with that id, or -1 exactly when no row has it |
| `StudentService.FindStudentByStudentId` | enrollment-service/src/main/java/com/zjgsu/wy/enrollment/service/StudentService.java:109-112 | the student with that number, or none exactly when no row has it |
| `StudentService.StudentTable.Save` | enrollment-service/src/main/java/com/zjgsu/wy/enrollment/model/Student.java:73-78 | insert defaults a null `createdAt` to now; merge keeps the stored `createdAt`; success iff no unique index is violated |
| `StudentService.StudentService.FindById` | enrollment-service/src/main/java/com/zjgsu/wy/enrollment/service/StudentService.java:38-40 | NotFound("Student", id) exactly when no student has that id |
| `StudentService.StudentService.FindByStudentId` | enrollment-service/src/main/java/com/zjgsu/wy/enrollment/service/StudentService.java:109-112 | NotFound("Student", "studentId: " + n) exactly when no student has that number |
| `StudentService.StudentService.Create` | enrollment-service/src/main/java/com/zjgsu/wy/enrollment/service/StudentService.java:47-59 | a taken student number, then a taken e-mail are refused with the table unchanged; otherwise the new student is appended, or, for a client-supplied id already stored, written over that row keeping its createdAt |
| `StudentService.StudentService.Update` | enrollment-service/src/main/java/com/zjgsu/wy/enrollment/service/StudentService.java:65-86 | NotFound for an unknown id; number and e-mail are checked only when they change; the result keeps the original id and createdAt and replaces that row alone |
| `StudentService.StudentService.DeleteById` | enrollment-service/src/main/java/com/zjgsu/wy/enrollment/service/StudentService.java:92-104 | NotFound for an unknown id; refused while an ACTIVE enrollment exists; otherwise that row alone is removed |
| `StudentService.DeleteKeepsActiveRowsAttached` | enrollment-service/src/main/java/com/zjgsu/wy/enrollment/service/StudentService.java:96-103 | because delete is refused while ACTIVE enrollments exist, every ACTIVE enrollment still names an existing student afterwards |
| `StudentService.RenumberingOrphansActiveEnrollment` | enrollment-service/src/main/java/com/zjgsu/wy/enrollment/service/StudentService.java:69-73 | for every valid student table, renumbering any student who holds an ACTIVE enrollment, which `update` accepts whenever the new number and e-mail are free, leaves the table `update` stores with that enrollment naming no student |
| `EnrollmentService.CourseGuard` | enrollment-service/src/main/java/com/zjgsu/wy/enrollment/service/EnrollmentService.java:76-99 | unreachable catalog, no course data, a full course and an ACTIVE duplicate each fail with their own error; none iff all pass |
| `EnrollmentService.EnrollGuard` | enrollment-service/src/main/java/com/zjgsu/wy/enrollment/service/EnrollmentService.java:63-99 | the guard order of `enroll`: unknown student, then a course id that is not a `long`, then the course guards; passes iff all hold |
| `EnrollmentService.CountingEnrollGuard` | enrollment-service/src/main/java/com/zjgsu/wy/enrollment/service/EnrollmentService.java:194-229 | the guard order of the counter variant, which has no parse step |
| `EnrollmentService.DropEnrollment` | enrollment-service/src/main/java/com/zjgsu/wy/enrollment/service/EnrollmentService.java:119-135 | NotFound, then NotActive for a non-ACTIVE record, otherwise exactly that record becomes DROPPED; a valid table stays valid |
| `EnrollmentService.EnrollmentService.FindById` | enrollment-service/src/main/java/com/zjgsu/wy/enrollment/service/EnrollmentService.java:49-52 | NotFound("Enrollment", id) exactly when no record has that id |
| `EnrollmentService.EnrollmentService.FindByStudentId` | enrollment-service/src/main/java/com/zjgsu/wy/enrollment/service/EnrollmentService.java:147-153 | NotFound for an unknown student; otherwise every record of the student, of any status |
| `EnrollmentService.EnrollmentService.Enroll` | enrollment-service/src/main/java/com/zjgsu/wy/enrollment/service/EnrollmentService.java:59-113 | every guard failure leaves the table unchanged; no remote call before the student and parse checks; on success exactly one ACTIVE row with the fresh id is appended |
| `EnrollmentService.EnrollmentService.SaveNew` | enrollment-service/src/main/java/com/zjgsu/wy/enrollment/service/EnrollmentService.java:102-112 | the row built through the setters is appended, or rejected by the pair key |
| `EnrollmentService.EnrollmentService.Unenroll` | enrollment-service/src/main/java/com/zjgsu/wy/enrollment/service/EnrollmentService.java:119-135 | the table changes exactly as `DropEnrollment` says, and is unchanged on every error |
| `EnrollmentService.EnrollmentService.UpdateCourseEnrolledCount` | enrollment-service/src/main/java/com/zjgsu/wy/enrollment/service/EnrollmentService.java:249-258 | one PUT of the new count is made; the catalog counter changes only if the write succeeds, and a failure is swallowed |
| `EnrollmentService.EnrollmentService.EnrollWithCount` | enrollment-service/src/main/java/com/zjgsu/wy/enrollment/service/EnrollmentService.java:192-244 | once the guards pass, the fetched count plus one is written before the commit; a pair-key failure at commit leaves the table unchanged but the counter raised, one above the ACTIVE count; a success keeps the counter equal to the ACTIVE count when it was equal before |
| `EnrollmentService.EnrollmentService.UnenrollWithCount` | enrollment-service/src/main/java/com/zjgsu/wy/enrollment/service/EnrollmentService.java:265-296 | after the drop the count minus one is written only when the fetched count is positive; remote failures are swallowed; a counter equal to the ACTIVE count stays equal when the write succeeds |
| `EnrollmentService.EnrollAddsOneActiveSeat` | enrollment-service/src/main/java/com/zjgsu/wy/enrollment/service/EnrollmentService.java:102-112 | a successful enrollment raises its course's ACTIVE count by one and no other course's |
| `EnrollmentService.EnrollTwiceRejected` | enrollment-service/src/main/java/com/zjgsu/wy/enrollment/service/EnrollmentService.java:97-99 | after a successful enrollment, enrolling the same pair again fails with AlreadyEnrolled |
| `EnrollmentService.DropReleasesOneSeat` | enrollment-service/src/main/java/com/zjgsu/wy/enrollment/service/EnrollmentService.java:130-131 | dropping lowers its course's ACTIVE count by exactly one |
| `EnrollmentService.UnenrollTwiceFails` | enrollment-service/src/main/java/com/zjgsu/wy/enrollment/service/EnrollmentService.java:125-127 | a dropped record cannot be dropped again |
| `EnrollmentService.ReenrollAfterDropRejected` | enrollment-service/src/main/java/com/zjgsu/wy/enrollment/repository/EnrollmentRepository.java:47-48 | after a drop, enrolling the same pair passes every guard but is rejected by the (course_id, student_id) key |
| `EnrollmentService.EnrollThenUnenroll` | enrollment-service/src/main/java/com/zjgsu/wy/enrollment/service/EnrollmentService.java:102-131 | enroll then unenroll leaves one DROPPED record for the pair and no ACTIVE one |
| `EnrollmentService.EnrollWriteKeepsCounterInSync` | enrollment-service/src/main/java/com/zjgsu/wy/enrollment/service/EnrollmentService.java:238-241 | when the fetched count equals the ACTIVE count, the value written after enroll is the new ACTIVE count |
| `EnrollmentService.UnenrollWriteKeepsCounterInSync` | enrollment-service/src/main/java/com/zjgsu/wy/enrollment/service/EnrollmentService.java:279-289 | when the fetched count equals the ACTIVE count, the `enrolled > 0` test passes and the value written is the new ACTIVE count |
| `CourseEntity.Course.constructor` | catalog-service/src/main/java/com/zjgsu/wy/catalog/model/Course.java:60-63 | `new Course()` has the fresh id and enrolled 0, and nothing else set |
| `CourseEntity.Course.Of` | catalog-service/src/main/java/com/zjgsu/wy/catalog/model/Course.java:66-74 | the full constructor keeps its arguments, with the fresh id and enrolled 0 |
| `CourseEntity.Course.OnCreate` | catalog-service/src/main/java/com/zjgsu/wy/catalog/model/Course.java:76-84 | fills a null `createdAt` with now and a null `enrolled` with 0; set values are kept |
| `CourseEntity.Course.SetEnrolled` | catalog-service/src/main/java/com/zjgsu/wy/catalog/model/Course.java:139-141 | stores any value, with no check against the capacity, and changes nothing else |
| `CourseEntity.Course.SetCapacity` | catalog-service/src/main/java/com/zjgsu/wy/catalog/model/Course.java:131-133 | stores any value, with no check against the enrolled count, and changes nothing else |
| `CourseEntity.Course.Row` | catalog-service/src/main/java/com/zjgsu/wy/catalog/model/Course.java:16-57 | the row written for a complete entity carries exactly its field values |
| `CourseRepository.FindCourseById` | catalog-service/src/main/java/com/zjgsu/wy/catalog/service/CourseService.java:33-36 | the course with that id, or none exactly when no row has it |
| `CourseRepository.FindByCode` | catalog-service/src/main/java/com/zjgsu/wy/catalog/repository/CourseRepository.java:21 | the course with that code, or none exactly when no row has it |
| `CourseRepository.ExistsByCodeIffFound` | catalog-service/src/main/java/com/zjgsu/wy/catalog/repository/CourseRepository.java:21-43 | `existsByCode(c)` holds exactly when `findByCode(c)` finds a course |
| `CourseRepository.FindByInstructorId` | catalog-service/src/main/java/com/zjgsu/wy/catalog/repository/CourseRepository.java:26-27 | exactly the courses whose instructor has that id |
| `CourseRepository.CountByInstructorIdIsListSize` | catalog-service/src/main/java/com/zjgsu/wy/catalog/repository/CourseRepository.java:26-49 | `countByInstructorId(i)` equals the size of `findByInstructorId(i)` |
| `CourseRepository.FindCoursesWithAvailableCapacity` | catalog-service/src/main/java/com/zjgsu/wy/catalog/repository/CourseRepository.java:32-33 | exactly the courses with enrolled < capacity |
| `CourseRepository.FindByTitleContainingIgnoreCase` | catalog-service/src/main/java/com/zjgsu/wy/catalog/repository/CourseRepository.java:38 | exactly the courses whose title contains the keyword, ignoring case |
| `CourseRepository.EmptyKeywordListsAll` | catalog-service/src/main/java/com/zjgsu/wy/catalog/service/CourseService.java:117-119 | searching by the empty keyword lists every course |
| `CourseRepository.CourseIndex` | catalog-service/src/main/java/com/zjgsu/wy/catalog/service/CourseService.java:33-36 | the position of the course with that id, or -1 exactly when none has it |
| `CourseRepository.WriteCourse` | catalog-service/src/main/java/com/zjgsu/wy/catalog/model/Course.java:13-20 | the unique code index: the write succeeds iff no other row holds the code, inserts or replaces by id, and keeps the table valid |
| `CourseRepository.CourseTable.Save` | catalog-service/src/main/java/com/zjgsu/wy/catalog/model/Course.java:47-84 | insert runs `onCreate` on the managed copy; merge keeps the non-updatable `createdAt` and fails NOT NULL on a null field; NOT NULL and the code index reject with the table unchanged |
| `CourseRepository.CourseTable.DeleteById` | catalog-service/src/main/java/com/zjgsu/wy/catalog/service/CourseService.java:104 | the course with that id alone is removed |
| `CourseService.CourseService.FindById` | catalog-service/src/main/java/com/zjgsu/wy/catalog/service/CourseService.java:33-36 | NotFound("Course", id) exactly when no course has that id |
| `CourseService.CourseService.FindByCode` | catalog-service/src/main/java/com/zjgsu/wy/catalog/service/CourseService.java:41-44 | NotFound("Course", "code: " + code) exactly when no course has that code |
| `CourseService.CourseService.Create` | catalog-service/src/main/java/com/zjgsu/wy/catalog/service/CourseService.java:50-56 | a taken code is refused with CourseCodeTaken; for a new id a null code is refused by NOT NULL, and a course with code, title and capacity is appended as given (instructor kept, enrolled defaulted to 0, createdAt to now), or, for a client-supplied id already stored, written over that course keeping its createdAt (a null enrolled then fails NOT NULL) |
| `CourseService.CourseService.Update` | catalog-service/src/main/java/com/zjgsu/wy/catalog/service/CourseService.java:62-82 | NotFound for an unknown id; a changed code must be free; the result keeps the id and createdAt, and the stored enrolled when the incoming one is null |
| `CourseService.CourseService.PartialUpdate` | catalog-service/src/main/java/com/zjgsu/wy/catalog/service/CourseService.java:88-94 | NotFound for an unknown id; otherwise only enrolled changes, and a null value leaves the course as it was |
| `CourseService.CourseService.DeleteById` | catalog-service/src/main/java/com/zjgsu/wy/catalog/service/CourseService.java:100-105 | NotFound for an unknown id with nothing deleted; otherwise that course alone is removed |
| `CourseController.AsInteger` | catalog-service/src/main/java/com/zjgsu/wy/catalog/controller/CourseController.java:104 | the `(Integer)` cast: null stays null, an int-range number passes, anything else is a type error |
| `CourseController.AsString` | catalog-service/src/main/java/com/zjgsu/wy/catalog/controller/CourseController.java:112 | the `(String)` cast: null stays null, a string passes, anything else is a type error |
| `CourseController.OnlyKey` | catalog-service/src/main/java/com/zjgsu/wy/catalog/controller/CourseController.java:103 | a map has a key and size one iff that key is its only key |
| `CourseController.IsPartialUpdate` | catalog-service/src/main/java/com/zjgsu/wy/catalog/controller/CourseController.java:103 | a body is a partial update iff `enrolled` is its only key |
| `CourseController.FullUpdateFields` | catalog-service/src/main/java/com/zjgsu/wy/catalog/controller/CourseController.java:110-122 | present keys are cast and copied; absent ones keep the `Course()` defaults, null except enrolled, which is 0 |
| `CourseController.CourseFromBody` | catalog-service/src/main/java/com/zjgsu/wy/catalog/controller/CourseController.java:110-122 | the setters on a fresh `Course()` leave exactly the fields `FullUpdateFields` describes, or fail with its type error; the instructor and creation time stay null |
| `CourseController.CourseController.UpdateCourse` | catalog-service/src/main/java/com/zjgsu/wy/catalog/controller/CourseController.java:98-126 | a body with only `enrolled` is a partial update, NotFound for an unknown id; any other body is NotFound for an unknown id, CourseCodeTaken for a changed code in use, and otherwise, with code, title and capacity given, replaces them, clears the instructor, and resets enrolled to 0 when absent |
| `AuthController.FindByUsername` | user-service/src/main/java/com/zjgsu/wy/user/controller/AuthController.java:40-41 | the first user with that username, or none exactly when no user has it; a null username finds nothing |
| `AuthController.Login` | user-service/src/main/java/com/zjgsu/wy/user/controller/AuthController.java:36-61 | 401 iff the username is unknown or the password differs; otherwise a token for the id, username and role, defaulting to "USER" |
| `AuthController.UserTable.Insert` | user-service/src/main/java/com/zjgsu/wy/user/controller/AuthController.java:92 | a new user gets the next generated id and the creation time `now`; a null username or password, or a taken username or non-null e-mail, is rejected with the table unchanged |
| `AuthController.AuthController.Register` | user-service/src/main/java/com/zjgsu/wy/user/controller/AuthController.java:69-103 | 400 for a taken username; 400 for a taken non-null e-mail; then a null username or password fails NOT NULL with the table unchanged; a token is issued exactly when the username and password are given and free and the e-mail is free, and then the role defaults to "USER" and exactly one user, created at `now`, is saved |
| `AuthController.AuthController.InitTestUsers` | user-service/src/main/java/com/zjgsu/wy/user/controller/AuthController.java:110-135 | nothing happens when any user exists; otherwise exactly "admin" (ADMIN) and "user" (USER) are created, each at the time of its own save (`adminAt`, then `userAt`) |
| `AuthController.LoginAfterRegister` | user-service/src/main/java/com/zjgsu/wy/user/controller/AuthController.java:40-55 | a newly registered user logs in with the same username and password |
| `AuthController.FindByUsernameAppend` | user-service/src/main/java/com/zjgsu/wy/user/controller/AuthController.java:40-41 | a username absent from the table is found at the newly appended row |
| `AuthController.WrongPasswordRefused` | user-service/src/main/java/com/zjgsu/wy/user/controller/AuthController.java:43-48 | a wrong password is refused with 401 for every user |
| `AuthController.SeededAdminLogsIn` | user-service/src/main/java/com/zjgsu/wy/user/controller/AuthController.java:116-122 | after seeding, "admin" with "admin123" receives a token with role ADMIN |
| `GatewayFilter.SameNameIsUpperEqual` | gateway-service/src/main/java/com/zjgsu/wy/gateway/filter/JwtAuthenticationFilter.java:53 | header names match ignoring case exactly when their upper-case forms are equal |
| `GatewayFilter.SameNameExcludes` | gateway-service/src/main/java/com/zjgsu/wy/gateway/filter/JwtAuthenticationFilter.java:85-89 | a line under one name is not under a different name, whatever its spelling |
| `GatewayFilter.FirstHeader` | gateway-service/src/main/java/com/zjgsu/wy/gateway/filter/JwtAuthenticationFilter.java:53 | `getFirst`: null iff no line's name matches ignoring case; otherwise the value of the first matching line |
| `GatewayFilter.AnyPrefix` | gateway-service/src/main/java/com/zjgsu/wy/gateway/filter/JwtAuthenticationFilter.java:102-104 | `anyMatch(path::startsWith)`: true iff some entry is a prefix of the path |
| `GatewayFilter.IsWhiteList` | gateway-service/src/main/java/com/zjgsu/wy/gateway/filter/JwtAuthenticationFilter.java:32-36 | a path is whitelisted iff it starts with one of the three whitelist entries |
| `GatewayFilter.SetHeader` | gateway-service/src/main/java/com/zjgsu/wy/gateway/filter/JwtAuthenticationFilter.java:85-89 | setting a header drops every line under that name in any spelling, so the name carries only the value given; every line under another name is kept and none is added |
| `GatewayFilter.SetHeaderKeepsCarries` | gateway-service/src/main/java/com/zjgsu/wy/gateway/filter/JwtAuthenticationFilter.java:85-89 | setting one header leaves what the lines under a different name carry unchanged |
| `GatewayFilter.SetThreeHeaders` | gateway-service/src/main/java/com/zjgsu/wy/gateway/filter/JwtAuthenticationFilter.java:85-89 | three header settings under distinct names leave each name carrying its value and every other line kept |
| `GatewayFilter.WithIdentity` | gateway-service/src/main/java/com/zjgsu/wy/gateway/filter/JwtAuthenticationFilter.java:85-89 | after the builder chain, X-User-Id, X-Username and X-User-Role each carry exactly the claim value in every spelling, and the other lines are those of the request |
| `GatewayFilter.Filter` | gateway-service/src/main/java/com/zjgsu/wy/gateway/filter/JwtAuthenticationFilter.java:39-97 | whitelisted paths pass unchanged; otherwise 401 unless a "Bearer " token is valid with a user id and a username; then every line under the three identity names, in any spelling, carries the claim value, role defaulting to "USER", and the other lines are kept both ways |
| `GatewayFilter.WhiteListExtends` | gateway-service/src/main/java/com/zjgsu/wy/gateway/filter/JwtAuthenticationFilter.java:103 | whatever is appended to a whitelisted path is still whitelisted |
| `GatewayFilter.WhiteListExamples` | gateway-service/src/main/java/com/zjgsu/wy/gateway/filter/JwtAuthenticationFilter.java:103 | "/api/auth/login/x" and "/api/auth/loginAsAnyone" are whitelisted; "/api/courses" is not |
| `GatewayFilter.CarriesAnySpelling` | gateway-service/src/main/java/com/zjgsu/wy/gateway/filter/JwtAuthenticationFilter.java:85-89 | what the lines under a name carry, they carry under every spelling of that name |
| `GatewayFilter.ForgedIdentityReplaced` | gateway-service/src/main/java/com/zjgsu/wy/gateway/filter/JwtAuthenticationFilter.java:85-89 | an X-User-Id line the client sent, under any spelling, is not forwarded unless it equals the token's user id, and reading the name in that spelling gives the token's user id |
| `GatewayFilter.ValidTokenForwarded` | gateway-service/src/main/java/com/zjgsu/wy/gateway/filter/JwtAuthenticationFilter.java:61-96 | a validated bearer token with a user id and a username is always let through |
| `GatewayFilter.BasicSchemeRefused` | gateway-service/src/main/java/com/zjgsu/wy/gateway/filter/JwtAuthenticationFilter.java:54-58 | any other authorization scheme gets 401 on a protected path |
| `Responses.Success` | catalog-service/src/main/java/com/zjgsu/wy/catalog/common/ApiResponse.java:29-31 | code 200, message "Success", the given data |
| `Responses.SuccessWith` | catalog-service/src/main/java/com/zjgsu/wy/catalog/common/ApiResponse.java:33-35 | code 200 with the given message and data |
| `Responses.ErrorWith` | catalog-service/src/main/java/com/zjgsu/wy/catalog/common/ApiResponse.java:42-44 | the given code, message and data; a success iff the code is 200 |
| `Responses.Error` | catalog-service/src/main/java/com/zjgsu/wy/catalog/common/ApiResponse.java:38-40 | the given code and message, with null data |
| `Responses.NotFound` | catalog-service/src/main/java/com/zjgsu/wy/catalog/common/ApiResponse.java:46-48 | code 404, the given message, null data; never a success |
| `Responses.BadRequest` | catalog-service/src/main/java/com/zjgsu/wy/catalog/common/ApiResponse.java:50-52 | code 400, the given message, null data; never a success |
| `Responses.FactoriesDistinct` | catalog-service/src/main/java/com/zjgsu/wy/catalog/common/ApiResponse.java:29-52 | a success, a not-found and a bad request can never be equal |
| `Responses.ErrorWithOkIsSuccess` | catalog-service/src/main/java/com/zjgsu/wy/catalog/common/ApiResponse.java:35-44 | an error built with code 200 equals the success with the same message and data |

## Left out

**Transport and framework**
- HTTP transport, Feign and `RestTemplate`, service discovery and the Feign fallbacks: each remote call is a parameter, and the fallback is the `Unreachable` reply.
- Rollback of a failed transaction is modelled only as a table left unchanged; remote writes made before the failure stay (see `EnrollWithCount`). Logging, the `Mono` plumbing of the gateway, and the HTTP status mapping of the other controllers: they are framework behaviour with no rule of the core in them.
- Concurrency: every service call is one atomic step. The check-then-act races in `enroll` (capacity, duplicate) are therefore not represented.
- `JwtUtil`: the signing, parsing and expiry of tokens are left to the parameters `issue`, `validate` and `claims`.

**Data**
- Java `int` overflow of `enrolled + 1` in the counter variant: counts are unbounded integers.
- The schedule slot of a course: no rule of the core reads it. A full update also clears it, like the instructor.
- The order of the lists the queries return: the model keeps insertion order, and no contract depends on it.
- The message strings of exceptions and replies: business errors are typed reasons, and `ApiResponse` messages are the strings passed in.
- The setters of `ApiResponse`: no operation of the core uses them.

**Strings and parsing**
- Strings.ToUpper: folds only the ASCII letters, where SQL `UPPER` folds every letter.
- Strings.ParseLong: accepts only ASCII digits, where `Long.parseLong` also accepts other Unicode decimal digits.
- GatewayFilter.FirstHeader: header names are compared by folding ASCII letters only, where Spring folds with Java's locale-aware lower-casing; HTTP header names are ASCII tokens, so the two agree on every valid name.
- GatewayFilter.SetHeader: the new line goes after all the kept lines, where Spring's header map may keep the name at its earlier position; no contract depends on the order of different names.

**Null handling and exceptions**
- A derived query with a null argument: it matches no row, because every column it filters on is NOT NULL.
- Null `enrolled` or `capacity` in the catalog reply, which unboxing turns into a `NullPointerException`: treated as the `Missing` reply.
- A null `enrolled` in the counter variant's `unenroll`: falls into the branch that writes nothing, as the code does.
- Null fields of an incoming `Student`: every student field is a plain string.
- The `NullPointerException` the code would raise when comparing a stored null `code` or `email`: excluded by the NOT NULL columns.

**User service**
- The client-supplied `id` and `createdAt` in a registration body: the id is always generated, and `createdAt` is always the creation time `now`, as the creation timestamp sets it on insert.
- `UserRepository` and `StudentRepository` are not separate modules of this model. Their derived queries appear as the functions of the modules that use them.

**Thin delegations**
- The service finders `findByCourseId`, `findByCourseIdAndStatus`, `findByStudentIdAndStatus`, `searchByTitle` and `findAvailableCourses` delegate to repository queries. The repository functions above model them.

=== FILE: api_response.dfy ===
/**
 * The catalog's uniform reply envelope `ApiResponse`: a code, a message
 * and optional data, built by static factories for success (200), a given
 * error code, not found (404) and bad request (400).
 */
module Responses {
  import opened Common

  /** The envelope; every field is a nullable reference. */
  datatype ApiResponse<T> = ApiResponse(code: Option<int>, message: Option<string>, data: Option<T>)

  const OkCode: int := 200
  const BadRequestCode: int := 400
  const NotFoundCode: int := 404
  const SuccessMessage: string := "Success"

  /** A success or an error, by the code the envelope carries. */
  predicate IsSuccess<T>(r: ApiResponse<T>)
  {
    r.code == Some(OkCode)
  }

  /** `success(data)`: code 200, message "Success". */
  function Success<T>(data: Option<T>): (r: ApiResponse<T>)
    ensures IsSuccess(r) && r.message == Some(SuccessMessage) && r.data == data
  {
    SuccessWith(SuccessMessage, data)
  }

  /** `success(message, data)`: code 200 with the given message and data. */
  function SuccessWith<T>(message: string, data: Option<T>): (r: ApiResponse<T>)
    ensures IsSuccess(r) && r.message == Some(message) && r.data == data
  {
    ApiResponse(Some(OkCode), Some(message), data)
  }

  /** `error(code, message, data)`. */
  function ErrorWith<T>(code: int, message: string, data: Option<T>): (r: ApiResponse<T>)
    ensures r.code == Some(code) && r.message == Some(message) && r.data == data
    ensures IsSuccess(r) <==> code == OkCode
  {
    ApiResponse(Some(code), Some(message), data)
  }

  /** `error(code, message)`: the given code and no data. */
  function Error<T>(code: int, message: string): (r: ApiResponse<T>)
    ensures r.code == Some(code) && r.message == Some(message) && r.data.None?
  {
    ErrorWith(code, message, None)
  }

  /** `notFound(message)`: code 404 and no data. */
  function NotFound<T>(message: string): (r: ApiResponse<T>)
    ensures r.code == Some(NotFoundCode) && r.message == Some(message) && r.data.None?
    ensures !IsSuccess(r)
  {
    Error(NotFoundCode, message)
  }

  /** `badRequest(message)`: code 400 and no data. */
  function BadRequest<T>(message: string): (r: ApiResponse<T>)
    ensures r.code == Some(BadRequestCode) && r.message == Some(message) && r.data.None?
    ensures !IsSuccess(r)
  {
    Error(BadRequestCode, message)
  }

  /**
   * The factories are distinguishable by their code alone: no success is a
   * not-found or a bad request, and the two error kinds never coincide.
   */
  lemma FactoriesDistinct<T>(m1: string, m2: string, data: Option<T>)
    ensures Success(data) != NotFound<T>(m1) && Success(data) != BadRequest<T>(m1)
    ensures SuccessWith(m1, data) != NotFound<T>(m2) && SuccessWith(m1, data) != BadRequest<T>(m2)
    ensures NotFound<T>(m1) != BadRequest<T>(m2)
  {
  }

  /** An error envelope built with code 200 is indistinguishable from a success with the same message and data. */
  lemma ErrorWithOkIsSuccess<T>(message: string, data: Option<T>)
    ensures ErrorWith(OkCode, message, data) == SuccessWith(message, data)
  {
  }
}

=== FILE: auth_controller.dfy ===
/**
 * The `users` table and the rules of `AuthController`: login by username
 * and password, registration with a unique username and e-mail address,
 * and the seeding of two test users. Token issuance is a function
 * parameter `issue(userId, username, role)`.
 */
module AuthController {
  import opened Common
  import opened Strings
  import opened Tables

  /**
   * A persisted row of the `users` table; the id is generated by the
   * database and `createdAt` is set by the creation timestamp on insert.
   */
  datatype User = User(
    id: nat,
    username: string,
    password: string,
    role: Option<string>,
    email: Option<string>,
    realName: Option<string>,
    createdAt: Timestamp)

  /** The body of a registration request: a `User` before it has an id. */
  datatype UserInput = UserInput(
    username: Option<string>,
    password: Option<string>,
    role: Option<string>,
    email: Option<string>,
    realName: Option<string>)

  /** The reply of the authentication endpoints. */
  datatype AuthReply =
    | Rejected(status: int)
    | Authenticated(token: string, user: User)
    | StorageError(failure: Failure)

  const DefaultRole: string := "USER"

  /** The unique username, and the unique e-mail address among those that are not null. */
  ghost predicate UsersValid(t: seq<User>, nextId: nat)
  {
    && (forall i :: 0 <= i < |t| ==> t[i].id < nextId)
    && (forall i, j :: 0 <= i < j < |t| ==> t[i].id != t[j].id)
    && (forall i, j :: 0 <= i < j < |t| ==> t[i].username != t[j].username)
    && (forall i, j :: 0 <= i < j < |t| && t[i].email.Some? ==> t[i].email != t[j].email)
  }

  /** The rows whose username is the given one; a null username matches no row, the column being NOT NULL. */
  function HasUsername(username: Option<string>): User -> bool
  {
    (u: User) => Some(u.username) == username
  }

  /** `findByUsername`: the first row with that username. */
  function FindByUsername(t: seq<User>, username: Option<string>): (r: Option<User>)
    ensures r.Some? ==> r.value in t && Some(r.value.username) == username
    ensures r.None? <==> forall i :: 0 <= i < |t| ==> Some(t[i].username) != username
  {
    match IndexWhere(t, HasUsername(username))
    case None => None
    case Some(i) => Some(t[i])
  }

  /** `existsByUsername`. */
  predicate ExistsByUsername(t: seq<User>, username: Option<string>)
  {
    exists i | 0 <= i < |t| :: Some(t[i].username) == username
  }

  /** `existsByEmail` of a non-null address. */
  predicate ExistsByEmail(t: seq<User>, email: string)
  {
    exists i | 0 <= i < |t| :: t[i].email == Some(email)
  }

  /**
   * `login`: 401 for an unknown username or a password that differs from
   * the stored one; otherwise a token for the user's id, username and role,
   * the role being "USER" when none is stored.
   */
  function Login(t: seq<User>, username: Option<string>, password: Option<string>,
                 issue: (string, string, string) -> string): (r: AuthReply)
    ensures r.Rejected? || r.Authenticated?
    ensures r.Rejected? <==> FindByUsername(t, username).None?
                             || Some(FindByUsername(t, username).value.password) != password
    ensures r.Rejected? ==> r.status == 401
    ensures r.Authenticated? ==>
              && r.user in t && Some(r.user.username) == username && Some(r.user.password) == password
              && r.token == issue(LongToString(r.user.id), r.user.username,
                                  if r.user.role.Some? then r.user.role.value else DefaultRole)
  {
    match FindByUsername(t, username)
    case None => Rejected(401)
    case Some(user) =>
      if Some(user.password) != password then Rejected(401)
      else Authenticated(issue(LongToString(user.id), user.username,
                               if user.role.Some? then user.role.value else DefaultRole), user)
  }

  /** A mutable `users` table with its identity counter. */
  class UserTable {
    var rows: seq<User>
    var nextId: nat

    ghost predicate Valid()
      reads this
    {
      UsersValid(rows, nextId)
    }

    constructor ()
      ensures Valid() && rows == []
    {
      rows := [];
      nextId := 1;
    }

    /**
     * `save` of a user without an id: the row gets the next generated id
     * and `now` as its creation time; a null username or password, a taken username or a taken non-null
     * e-mail address is rejected and the table is left as it was.
     */
    method Insert(u: UserInput, now: Timestamp) returns (res: Result<User>)
      requires Valid()
      modifies this
      ensures Valid()
      ensures res.Err? ==> rows == old(rows) && res.failure.ConstraintViolation?
      ensures u.username.None? || u.password.None? ==> res == Err(ConstraintViolation("NOT NULL"))
      ensures res.Ok? <==> u.username.Some? && u.password.Some? && !ExistsByUsername(old(rows), u.username)
                           && (u.email.Some? ==> !ExistsByEmail(old(rows), u.email.value))
      ensures res.Ok? ==>
                && res.value == User(old(nextId), u.username.value, u.password.value, u.role, u.email,
                                     u.realName, now)
                && rows == old(rows) + [res.value]
      ensures nextId == if res.Ok? then old(nextId) + 1 else old(nextId)
    {
      if u.username.None? || u.password.None? {
        return Err(ConstraintViolation("NOT NULL"));
      }
      if ExistsByUsername(rows, u.username) {
        return Err(ConstraintViolation("users.username"));
      }
      if u.email.Some? && ExistsByEmail(rows, u.email.value) {
        return Err(ConstraintViolation("users.email"));
      }
      var row := User(nextId, u.username.value, u.password.value, u.role, u.email, u.realName, now);
      rows := rows + [row];
      nextId := nextId + 1;
      res := Ok(row);
    }
  }

  const AdminName: string := "\U{7BA1}\U{7406}\U{5458}"
  const PlainUserName: string := "\U{666E}\U{901A}\U{7528}\U{6237}"

  /** The two users `initTestUsers` creates. */
  const TestAdmin: UserInput :=
    UserInput(Some("admin"), Some("admin123"), Some("ADMIN"), Some("admin@example.com"), Some(AdminName))
  const TestUser: UserInput :=
    UserInput(Some("user"), Some("user123"), Some("USER"), Some("user@example.com"), Some(PlainUserName))

  class AuthController {
    const users: UserTable

    constructor (users: UserTable)
      ensures this.users == users
    {
      this.users := users;
    }

    /**
     * `register`: 400 for a taken username, 400 for a taken e-mail address
     * when one is given; a null username or password is then refused by
     * the NOT NULL columns; otherwise the role defaults to "USER", exactly
     * one user is saved and a token is issued for it.
     */
    method Register(u: UserInput, issue: (string, string, string) -> string, now: Timestamp)
      returns (r: AuthReply)
      requires users.Valid()
      modifies users
      ensures users.Valid()
      ensures !r.Authenticated? ==> users.rows == old(users.rows)
      ensures ExistsByUsername(old(users.rows), u.username) ==> r == Rejected(400)
      ensures (!ExistsByUsername(old(users.rows), u.username) && u.email.Some?
               && ExistsByEmail(old(users.rows), u.email.value)) ==> r == Rejected(400)
      ensures u.email.None? && !ExistsByUsername(old(users.rows), u.username) ==> r != Rejected(400)
      ensures r.Authenticated? <==>
                && !ExistsByUsername(old(users.rows), u.username)
                && (u.email.Some? ==> !ExistsByEmail(old(users.rows), u.email.value))
                && u.username.Some? && u.password.Some?
      ensures (u.username.None? || u.password.None?) && !ExistsByUsername(old(users.rows), u.username)
              && (u.email.Some? ==> !ExistsByEmail(old(users.rows), u.email.value)) ==>
                r == StorageError(ConstraintViolation("NOT NULL"))
      ensures (!ExistsByUsername(old(users.rows), u.username)
               && (u.email.Some? ==> !ExistsByEmail(old(users.rows), u.email.value))
               && u.username.Some? && u.password.Some?) ==>
                var saved := User(old(users.nextId), u.username.value, u.password.value,
                                  if u.role.Some? then u.role else Some(DefaultRole), u.email, u.realName, now);
                && users.rows == old(users.rows) + [saved]
                && r == Authenticated(issue(LongToString(saved.id), saved.username, saved.role.value), saved)
    {
      if ExistsByUsername(users.rows, u.username) {
        return Rejected(400);
      }
      if u.email.Some? && ExistsByEmail(users.rows, u.email.value) {
        return Rejected(400);
      }
      var withRole := if u.role.None? then u.(role := Some(DefaultRole)) else u;
      var saved := users.Insert(withRole, now);
      if saved.Err? {
        return StorageError(saved.failure);
      }
      r := Authenticated(issue(LongToString(saved.value.id), saved.value.username, saved.value.role.value),
                         saved.value);
    }

    /**
     * `initTestUsers`: nothing happens when any user exists; otherwise
     * exactly "admin" with role ADMIN and "user" with role USER are saved,
     * each at the time of its own save: `adminAt`, then `userAt`.
     */
    method InitTestUsers(adminAt: Timestamp, userAt: Timestamp) returns (created: bool)
      requires users.Valid()
      requires adminAt <= userAt
      modifies users
      ensures users.Valid()
      ensures created <==> old(users.rows) == []
      ensures !created ==> users.rows == old(users.rows)
      ensures created ==>
                users.rows == [User(old(users.nextId), "admin", "admin123", Some("ADMIN"), Some("admin@example.com"),
                                    Some(AdminName), adminAt),
                               User(old(users.nextId) + 1, "user", "user123", Some("USER"), Some("user@example.com"),
                                    Some(PlainUserName), userAt)]
    {
      if |users.rows| > 0 {
        return false;
      }
      var admin := users.Insert(TestAdmin, adminAt);
      assert admin.Ok?;
      assert users.rows == [admin.value];
      assert admin.value.username[0] != TestUser.username.value[0];
      assert admin.value.email.value[0] != TestUser.email.value[0];
      assert !ExistsByUsername(users.rows, TestUser.username);
      assert !ExistsByEmail(users.rows, TestUser.email.value);
      var user := users.Insert(TestUser, userAt);
      assert user.Ok?;
      created := true;
    }
  }

  /** A user who has just registered can log in with the same username and password. */
  lemma LoginAfterRegister(t: seq<User>, saved: User, issue: (string, string, string) -> string)
    requires !ExistsByUsername(t, Some(saved.username))
    ensures Login(t + [saved], Some(saved.username), Some(saved.password), issue)
            == Authenticated(issue(LongToString(saved.id), saved.username,
                                   if saved.role.Some? then saved.role.value else DefaultRole), saved)
  {
    FindByUsernameAppend(t, saved);
  }

  /** A username absent from the table is found at the row appended for it. */
  lemma FindByUsernameAppend(t: seq<User>, saved: User)
    requires !ExistsByUsername(t, Some(saved.username))
    ensures FindByUsername(t + [saved], Some(saved.username)) == Some(saved)
  {
    var p := HasUsername(Some(saved.username));
    assert p((t + [saved])[|t|]);
    assert forall j :: 0 <= j < |t| ==> (t + [saved])[j] == t[j];
  }

  /** A wrong password is always refused, whoever the user is. */
  lemma WrongPasswordRefused(t: seq<User>, username: string, password: string,
                             issue: (string, string, string) -> string)
    requires FindByUsername(t, Some(username)).Some?
    requires FindByUsername(t, Some(username)).value.password != password
    ensures Login(t, Some(username), Some(password), issue) == Rejected(401)
  {
  }

  /** After seeding, "admin" logs in with password "admin123" and receives a token with role ADMIN. */
  lemma SeededAdminLogsIn(id: nat, adminAt: Timestamp, userAt: Timestamp, issue: (string, string, string) -> string)
    ensures var admin := User(id, "admin", "admin123", Some("ADMIN"), Some("admin@example.com"), Some(AdminName), adminAt);
            var user := User(id + 1, "user", "user123", Some("USER"), Some("user@example.com"), Some(PlainUserName), userAt);
            Login([admin, user], Some("admin"), Some("admin123"), issue)
            == Authenticated(issue(LongToString(id), "admin", "ADMIN"), admin)
  {
  }
}

=== FILE: common.dfy ===
/** Shared value types: optional values, results and the failures the services raise. */
module Common {

  /** A Java reference that may be null. */
  datatype Option<+T> = None | Some(value: T)

  /** What a service call produced: a value, or the exception it threw. */
  datatype Result<+T> = Ok(value: T) | Err(failure: Failure)

  /** Opaque wall-clock reading (`LocalDateTime.now()`); only equality matters. */
  type Timestamp = nat

  /** The reasons carried by a `BusinessException`. */
  datatype BusinessReason =
    | InvalidCourseIdFormat        // enroll: courseId is not a long
    | CatalogUnreachable           // enroll: the catalog call threw
    | CourseFull                   // enroll: enrolled >= capacity
    | AlreadyEnrolled              // enroll: an ACTIVE row exists for the pair
    | NotActive                    // unenroll: status is not ACTIVE
    | StudentIdTaken(studentId: string)
    | EmailTaken(email: string)
    | HasActiveEnrollments         // student delete while enrolled
    | CourseCodeTaken(code: string)

  /** The exceptions a service call can end in. */
  datatype Failure =
    | NotFound(resource: string, key: string)   // ResourceNotFoundException
    | Business(reason: BusinessReason)          // BusinessException
    | ConstraintViolation(constraint: string)   // the database rejects the write
    | TypeMismatch(key: string)                 // a ClassCastException on a request body value
}

=== FILE: course_controller.dfy ===
/**
 * `PUT /api/courses/{id}` of the catalog's `CourseController`: a body whose
 * only key is `enrolled` is a partial update; any other body is copied key
 * by key into a fresh `Course()` and sent to the full update.
 */
module CourseController {
  import opened Common
  import opened CourseEntity
  import opened CourseRepository
  import opened CourseService

  /**
   * A JSON value as the request body's map holds it: a string, an integral
   * number, null, or anything else (a fraction, a boolean, an object or an
   * array).
   */
  datatype Json = JString(s: string) | JNumber(n: int) | JNull | JOther

  /** The range of a Java `int`; a larger integral number is read as a `Long`. */
  const IntMin: int := -0x8000_0000
  const IntMax: int := 0x7fff_ffff

  /** The cast `(Integer) value`: null stays null; a value that is not an `Integer` is a type error. */
  function AsInteger(key: string, v: Json): (r: Result<Option<int>>)
    ensures r.Ok? <==> v.JNull? || (v.JNumber? && IntMin <= v.n <= IntMax)
    ensures r.Ok? && r.value.Some? ==> v == JNumber(r.value.value)
    ensures r.Err? ==> r.failure == TypeMismatch(key)
  {
    match v
    case JNull => Ok(None)
    case JNumber(n) => if IntMin <= n <= IntMax then Ok(Some(n)) else Err(TypeMismatch(key))
    case _ => Err(TypeMismatch(key))
  }

  /** The cast `(String) value`. */
  function AsString(key: string, v: Json): (r: Result<Option<string>>)
    ensures r.Ok? <==> v.JNull? || v.JString?
    ensures r.Ok? && r.value.Some? ==> v == JString(r.value.value)
    ensures r.Err? ==> r.failure == TypeMismatch(key)
  {
    match v
    case JNull => Ok(None)
    case JString(s) => Ok(Some(s))
    case _ => Err(TypeMismatch(key))
  }

  /** `updateData.containsKey("enrolled") && updateData.size() == 1`. */
  function IsPartialUpdate(body: map<string, Json>): (r: bool)
    ensures r <==> body.Keys == {"enrolled"}
  {
    OnlyKey(body, "enrolled");
    "enrolled" in body && |body| == 1
  }

  /** A map holds `k` and has size one exactly when `k` is its only key. */
  lemma OnlyKey(body: map<string, Json>, k: string)
    ensures (k in body && |body| == 1) <==> body.Keys == {k}
  {
    if k in body {
      var rest := body.Keys - {k};
      assert body.Keys == rest + {k};
      assert |body.Keys| == |rest| + 1;
    }
  }

  /** What a full update copies from the body into the fresh `Course()`. */
  datatype CourseFields = CourseFields(code: Option<string>, title: Option<string>,
                                       capacity: Option<int>, enrolled: Option<int>)

  /**
   * The fields of the fresh `Course()` after the conditional setters: each
   * key that is present is cast and copied, each absent one keeps the
   * `Course()` default, which is null except for `enrolled`, which is 0.
   */
  function FullUpdateFields(body: map<string, Json>): (r: Result<CourseFields>)
    ensures r.Ok? && "code" !in body ==> r.value.code == None
    ensures r.Ok? && "title" !in body ==> r.value.title == None
    ensures r.Ok? && "capacity" !in body ==> r.value.capacity == None
    ensures r.Ok? && "enrolled" !in body ==> r.value.enrolled == Some(0)
    ensures r.Ok? && "enrolled" in body ==> AsInteger("enrolled", body["enrolled"]) == Ok(r.value.enrolled)
    ensures r.Err? ==> exists k :: k in body && k in {"code", "title", "capacity", "enrolled"}
                                   && r.failure == TypeMismatch(k)
  {
    var code := if "code" in body then AsString("code", body["code"]) else Ok(None);
    var title := if "title" in body then AsString("title", body["title"]) else Ok(None);
    var capacity := if "capacity" in body then AsInteger("capacity", body["capacity"]) else Ok(None);
    var enrolled := if "enrolled" in body then AsInteger("enrolled", body["enrolled"]) else Ok(Some(0));
    if code.Err? then Err(code.failure)
    else if title.Err? then Err(title.failure)
    else if capacity.Err? then Err(capacity.failure)
    else if enrolled.Err? then Err(enrolled.failure)
    else Ok(CourseFields(code.value, title.value, capacity.value, enrolled.value))
  }

  /**
   * The fresh `Course()` a full update fills through its conditional
   * setters; the first key whose value has the wrong type fails the cast.
   */
  method CourseFromBody(body: map<string, Json>, freshId: string) returns (r: Result<Course>)
    ensures r.Err? <==> FullUpdateFields(body).Err?
    ensures r.Err? ==> r.failure == FullUpdateFields(body).failure
    ensures r.Ok? ==>
              && fresh(r.value) && r.value.id == freshId
              && r.value.instructor == None && r.value.createdAt == None
              && FullUpdateFields(body).value
                 == CourseFields(r.value.code, r.value.title, r.value.capacity, r.value.enrolled)
  {
    var c := new Course(freshId);
    if "code" in body {
      var code := AsString("code", body["code"]);
      if code.Err? {
        return Err(code.failure);
      }
      c.code := code.value;
    }
    if "title" in body {
      var title := AsString("title", body["title"]);
      if title.Err? {
        return Err(title.failure);
      }
      c.title := title.value;
    }
    if "capacity" in body {
      var capacity := AsInteger("capacity", body["capacity"]);
      if capacity.Err? {
        return Err(capacity.failure);
      }
      c.SetCapacity(capacity.value);
    }
    if "enrolled" in body {
      var enrolled := AsInteger("enrolled", body["enrolled"]);
      if enrolled.Err? {
        return Err(enrolled.failure);
      }
      c.SetEnrolled(enrolled.value);
    }
    r := Ok(c);
  }

  class CourseController {
    const service: CourseService

    constructor (service: CourseService)
      ensures this.service == service
    {
      this.service := service;
    }

    /**
     * `updateCourse(id, body)`. A partial update changes `enrolled` alone.
     * A full update replaces code, title, capacity and instructor by what
     * the body gives (the instructor is never in it and becomes null), and
     * `enrolled` by the body's value, the stored value when the body holds
     * null, or 0 when the body does not mention it.
     */
    method UpdateCourse(id: string, body: map<string, Json>, freshId: string, now: Timestamp)
      returns (r: Result<CourseRow>)
      requires service.Valid()
      modifies service.courses
      ensures service.Valid()
      ensures r.Err? ==> service.courses.rows == old(service.courses.rows)
      ensures CourseIndex(old(service.courses.rows), id) < 0 && r.Err? ==>
                r.failure == NotFound("Course", id) || r.failure.TypeMismatch?
      ensures IsPartialUpdate(body) ==>
                match AsInteger("enrolled", body["enrolled"])
                case Err(f) => r == Err(f)
                case Ok(enrolled) =>
                  if CourseIndex(old(service.courses.rows), id) < 0 then r == Err(NotFound("Course", id))
                  else
                    var i := CourseIndex(old(service.courses.rows), id);
                    var existing := old(service.courses.rows)[i];
                    var updated := if enrolled.Some? then existing.(enrolled := enrolled.value) else existing;
                    r == Ok(updated) && service.courses.rows == old(service.courses.rows)[i := updated]
      ensures !IsPartialUpdate(body) && FullUpdateFields(body).Err? ==> r == Err(FullUpdateFields(body).failure)
      ensures !IsPartialUpdate(body) && FullUpdateFields(body).Ok? ==>
                var f := FullUpdateFields(body).value;
                if CourseIndex(old(service.courses.rows), id) < 0 then r == Err(NotFound("Course", id))
                else
                  var existing := old(service.courses.rows)[CourseIndex(old(service.courses.rows), id)];
                  && (f.code.Some? && f.code.value != existing.code
                      && ExistsByCode(old(service.courses.rows), f.code.value) ==>
                        r == Err(Business(CourseCodeTaken(f.code.value))))
                  && (f.code.Some? && f.title.Some? && f.capacity.Some?
                      && (f.code.value == existing.code || !ExistsByCode(old(service.courses.rows), f.code.value)) ==>
                        r.Ok?)
      ensures !IsPartialUpdate(body) && r.Ok? ==>
                && FullUpdateFields(body).Ok? && CourseIndex(old(service.courses.rows), id) >= 0
                && FullUpdateFields(body).value.code.Some? && FullUpdateFields(body).value.title.Some?
                && FullUpdateFields(body).value.capacity.Some?
                && (var f := FullUpdateFields(body).value;
                    var i := CourseIndex(old(service.courses.rows), id);
                    var existing := old(service.courses.rows)[i];
                    && r.value == CourseRow(id, f.code.value, f.title.value, None, f.capacity.value,
                                            if f.enrolled.Some? then f.enrolled.value else existing.enrolled,
                                            existing.createdAt)
                    && service.courses.rows == old(service.courses.rows)[i := r.value])
      ensures !IsPartialUpdate(body) && "enrolled" !in body && r.Ok? ==> r.value.enrolled == 0
    {
      if IsPartialUpdate(body) {
        var enrolled := AsInteger("enrolled", body["enrolled"]);
        if enrolled.Err? {
          return Err(enrolled.failure);
        }
        r := service.PartialUpdate(id, enrolled.value, now);
        return;
      }
      var course := CourseFromBody(body, freshId);
      if course.Err? {
        return Err(course.failure);
      }
      r := service.Update(id, course.value, now);
    }
  }
}

=== FILE: course_entity.dfy ===
/**
 * The `Course` JPA entity of the catalog: a mutable object whose nullable
 * fields are filled by constructors and setters, and the row it becomes in
 * the `courses` table, where code, title, capacity, enrolled and the
 * creation time are NOT NULL.
 */
module CourseEntity {
  import opened Common

  /** The embedded instructor; each of its columns is nullable. */
  datatype Instructor = Instructor(id: Option<string>, name: Option<string>, email: Option<string>)

  /** A persisted row of the `courses` table. */
  datatype CourseRow = CourseRow(
    id: string,
    code: string,
    title: string,
    instructor: Option<Instructor>,
    capacity: int,
    enrolled: int,
    createdAt: Timestamp)

  class Course {
    var id: string
    var code: Option<string>
    var title: Option<string>
    var instructor: Option<Instructor>
    var capacity: Option<int>
    var enrolled: Option<int>
    var createdAt: Option<Timestamp>

    /** `new Course()`: a fresh random id and `enrolled` 0, nothing else set. */
    constructor (freshId: string)
      ensures id == freshId && enrolled == Some(0)
      ensures code == None && title == None && instructor == None && capacity == None && createdAt == None
    {
      id := freshId;
      code := None;
      title := None;
      instructor := None;
      capacity := None;
      enrolled := Some(0);
      createdAt := None;
    }

    /** `new Course(code, title, instructor, schedule, capacity)`: a fresh random id and `enrolled` 0. */
    constructor Of(freshId: string, code: Option<string>, title: Option<string>, instructor: Option<Instructor>,
                   capacity: Option<int>)
      ensures id == freshId && enrolled == Some(0) && createdAt == None
      ensures this.code == code && this.title == title && this.instructor == instructor
      ensures this.capacity == capacity
    {
      id := freshId;
      this.code := code;
      this.title := title;
      this.instructor := instructor;
      this.capacity := capacity;
      enrolled := Some(0);
      createdAt := None;
    }

    /** The managed entity JPA materialises when it loads a row. */
    constructor Load(row: CourseRow)
      ensures Complete() && Row() == row
    {
      id := row.id;
      code := Some(row.code);
      title := Some(row.title);
      instructor := row.instructor;
      capacity := Some(row.capacity);
      enrolled := Some(row.enrolled);
      createdAt := Some(row.createdAt);
    }

    /** The managed copy `persist` or `merge` makes of a detached entity. */
    constructor CopyOf(other: Course)
      ensures id == other.id && code == other.code && title == other.title
      ensures instructor == other.instructor && capacity == other.capacity
      ensures enrolled == other.enrolled && createdAt == other.createdAt
    {
      id := other.id;
      code := other.code;
      title := other.title;
      instructor := other.instructor;
      capacity := other.capacity;
      enrolled := other.enrolled;
      createdAt := other.createdAt;
    }

    /**
     * `@PrePersist onCreate`: fills a null creation time with the current
     * time and a null `enrolled` with 0; values already set are kept.
     */
    method OnCreate(now: Timestamp)
      modifies this
      ensures createdAt == (if old(createdAt).None? then Some(now) else old(createdAt))
      ensures enrolled == (if old(enrolled).None? then Some(0) else old(enrolled))
      ensures id == old(id) && code == old(code) && title == old(title)
      ensures instructor == old(instructor) && capacity == old(capacity)
    {
      if createdAt.None? {
        createdAt := Some(now);
      }
      if enrolled.None? {
        enrolled := Some(0);
      }
    }

    /** `setEnrolled`: stores any value, with no check against the capacity. */
    method SetEnrolled(value: Option<int>)
      modifies this
      ensures enrolled == value
      ensures id == old(id) && code == old(code) && title == old(title)
      ensures instructor == old(instructor) && capacity == old(capacity) && createdAt == old(createdAt)
    {
      enrolled := value;
    }

    /** `setCapacity`: stores any value, with no check against the enrolled count. */
    method SetCapacity(value: Option<int>)
      modifies this
      ensures capacity == value
      ensures id == old(id) && code == old(code) && title == old(title)
      ensures instructor == old(instructor) && enrolled == old(enrolled) && createdAt == old(createdAt)
    {
      capacity := value;
    }

    /** Every NOT NULL column has a value. */
    predicate Complete()
      reads this
    {
      code.Some? && title.Some? && capacity.Some? && enrolled.Some? && createdAt.Some?
    }

    /** The row this entity is written as. */
    function Row(): (r: CourseRow)
      reads this
      requires Complete()
      ensures r.id == id && Some(r.code) == code && Some(r.title) == title && r.instructor == instructor
      ensures Some(r.capacity) == capacity && Some(r.enrolled) == enrolled && Some(r.createdAt) == createdAt
    {
      CourseRow(id, code.value, title.value, instructor, capacity.value, enrolled.value, createdAt.value)
    }
  }
}

=== FILE: course_repository.dfy ===
/**
 * The `courses` table and the queries of `CourseRepository`, as functions
 * over the rows in insertion order; `save` inserts a new id and merges a
 * known one, subject to the unique index on the course code.
 */
module CourseRepository {
  import opened Common
  import opened Tables
  import opened Strings
  import opened CourseEntity

  /** The unique index `idx_course_code`. */
  const CodeKey: string := "idx_course_code"
  /** A NOT NULL column left null. */
  const NotNull: string := "NOT NULL"

  function CourseHasId(id: string): CourseRow -> bool
  {
    (c: CourseRow) => c.id == id
  }

  function CourseHasCode(code: string): CourseRow -> bool
  {
    (c: CourseRow) => c.code == code
  }

  /** `c.instructor.id = :instructorId`, false when the instructor or its id is null. */
  function TaughtBy(instructorId: string): CourseRow -> bool
  {
    (c: CourseRow) => c.instructor.Some? && c.instructor.value.id == Some(instructorId)
  }

  function HasRoom(): CourseRow -> bool
  {
    (c: CourseRow) => c.enrolled < c.capacity
  }

  function TitleMatches(keyword: string): CourseRow -> bool
  {
    (c: CourseRow) => ContainsIgnoreCase(c.title, keyword)
  }

  /** The primary key and the unique course code. */
  ghost predicate CoursesValid(t: seq<CourseRow>)
  {
    && (forall i, j :: 0 <= i < j < |t| ==> t[i].id != t[j].id)
    && (forall i, j :: 0 <= i < j < |t| ==> t[i].code != t[j].code)
  }

  /** `findById`. */
  function FindCourseById(t: seq<CourseRow>, id: string): (r: Option<CourseRow>)
    ensures r.Some? ==> r.value in t && r.value.id == id
    ensures r.None? <==> forall i :: 0 <= i < |t| ==> t[i].id != id
  {
    match IndexWhere(t, CourseHasId(id))
    case None => None
    case Some(i) => Some(t[i])
  }

  /** `existsById`. */
  predicate ExistsById(t: seq<CourseRow>, id: string)
  {
    exists i | 0 <= i < |t| :: t[i].id == id
  }

  /** `findByCode`. */
  function FindByCode(t: seq<CourseRow>, code: string): (r: Option<CourseRow>)
    ensures r.Some? ==> r.value in t && r.value.code == code
    ensures r.None? <==> forall i :: 0 <= i < |t| ==> t[i].code != code
  {
    match IndexWhere(t, CourseHasCode(code))
    case None => None
    case Some(i) => Some(t[i])
  }

  /** `existsByCode`. */
  predicate ExistsByCode(t: seq<CourseRow>, code: string)
  {
    Count(t, CourseHasCode(code)) > 0
  }

  /** `existsByCode(c)` holds exactly when `findByCode(c)` finds a course. */
  lemma ExistsByCodeIffFound(t: seq<CourseRow>, code: string)
    ensures ExistsByCode(t, code) <==> FindByCode(t, code).Some?
  {
    CountPositive(t, CourseHasCode(code));
  }

  /** `findByInstructorId`. */
  function FindByInstructorId(t: seq<CourseRow>, instructorId: string): (r: seq<CourseRow>)
    ensures forall i :: 0 <= i < |r| ==> r[i] in t && TaughtBy(instructorId)(r[i])
    ensures forall i :: 0 <= i < |t| && TaughtBy(instructorId)(t[i]) ==> t[i] in r
  {
    Filter(t, TaughtBy(instructorId))
  }

  /** `countByInstructorId`. */
  function CountByInstructorId(t: seq<CourseRow>, instructorId: string): nat
  {
    Count(t, TaughtBy(instructorId))
  }

  /** `countByInstructorId(i)` is the size of `findByInstructorId(i)`. */
  lemma CountByInstructorIdIsListSize(t: seq<CourseRow>, instructorId: string)
    ensures CountByInstructorId(t, instructorId) == |FindByInstructorId(t, instructorId)|
  {
    CountIsFilterLength(t, TaughtBy(instructorId));
  }

  /** `findCoursesWithAvailableCapacity`: exactly the courses with `enrolled < capacity`. */
  function FindCoursesWithAvailableCapacity(t: seq<CourseRow>): (r: seq<CourseRow>)
    ensures forall i :: 0 <= i < |r| ==> r[i] in t && r[i].enrolled < r[i].capacity
    ensures forall i :: 0 <= i < |t| && t[i].enrolled < t[i].capacity ==> t[i] in r
  {
    Filter(t, HasRoom())
  }

  /** `findByTitleContainingIgnoreCase`: exactly the courses whose title contains the keyword, ignoring case. */
  function FindByTitleContainingIgnoreCase(t: seq<CourseRow>, keyword: string): (r: seq<CourseRow>)
    ensures forall i :: 0 <= i < |r| ==> r[i] in t && ContainsIgnoreCase(r[i].title, keyword)
    ensures forall i :: 0 <= i < |t| && ContainsIgnoreCase(t[i].title, keyword) ==> t[i] in r
  {
    Filter(t, TitleMatches(keyword))
  }

  /** An empty keyword lists every course. */
  lemma EmptyKeywordListsAll(t: seq<CourseRow>)
    ensures forall i :: 0 <= i < |t| ==> t[i] in FindByTitleContainingIgnoreCase(t, "")
  {
    forall i | 0 <= i < |t|
      ensures t[i] in FindByTitleContainingIgnoreCase(t, "")
    {
      EmptyKeywordMatches(t[i].title);
    }
  }

  /** The position of the row with that id, or -1. */
  function CourseIndex(t: seq<CourseRow>, id: string): (k: int)
    ensures -1 <= k < |t|
    ensures k >= 0 ==> t[k].id == id
    ensures k < 0 <==> forall i :: 0 <= i < |t| ==> t[i].id != id
  {
    match IndexWhere(t, CourseHasId(id))
    case None => -1
    case Some(i) => i
  }

  /** Some row other than position `except` has the code. */
  predicate CodeTakenExcept(t: seq<CourseRow>, code: string, except: int)
  {
    exists j | 0 <= j < |t| :: j != except && t[j].code == code
  }

  /**
   * Writing the row `c`: an insert for a new id, a replacement of the row
   * with that id otherwise; the unique index rejects a code held by another
   * row.
   */
  function WriteCourse(t: seq<CourseRow>, c: CourseRow): (res: Result<seq<CourseRow>>)
    ensures CoursesValid(t) && res.Ok? ==> CoursesValid(res.value)
    ensures res.Ok? <==> !CodeTakenExcept(t, c.code, CourseIndex(t, c.id))
    ensures res.Err? ==> res.failure == ConstraintViolation(CodeKey)
    ensures res.Ok? && CourseIndex(t, c.id) < 0 ==> res.value == t + [c]
    ensures res.Ok? && CourseIndex(t, c.id) >= 0 ==> res.value == t[CourseIndex(t, c.id) := c]
  {
    var at := CourseIndex(t, c.id);
    if CodeTakenExcept(t, c.code, at) then Err(ConstraintViolation(CodeKey))
    else if at < 0 then Ok(t + [c])
    else Ok(t[at := c])
  }

  /** A mutable `courses` table. */
  class CourseTable {
    var rows: seq<CourseRow>

    ghost predicate Valid()
      reads this
    {
      CoursesValid(rows)
    }

    constructor ()
      ensures Valid() && rows == []
    {
      rows := [];
    }

    /**
     * `save(c)`. A new id is persisted: the managed copy runs `onCreate`
     * first. A known id is merged: `created_at`, not updatable, keeps its
     * stored value. A null NOT NULL column or a code held by another row is
     * rejected and the table is left as it was.
     */
    method Save(c: Course, now: Timestamp) returns (res: Result<CourseRow>)
      requires Valid()
      modifies this
      ensures Valid()
      ensures res.Err? ==> rows == old(rows)
      ensures res.Ok? ==> res.value.id == c.id && Some(res.value.code) == c.code && Some(res.value.title) == c.title
                          && res.value.instructor == c.instructor && Some(res.value.capacity) == c.capacity
      ensures CourseIndex(old(rows), c.id) < 0 ==>
                (res.Ok? <==> c.code.Some? && c.title.Some? && c.capacity.Some?
                              && !CodeTakenExcept(old(rows), c.code.value, -1))
      ensures CourseIndex(old(rows), c.id) < 0 && res.Ok? ==>
                rows == old(rows) + [res.value]
                && res.value.enrolled == (if c.enrolled.Some? then c.enrolled.value else 0)
                && res.value.createdAt == (if c.createdAt.Some? then c.createdAt.value else now)
      ensures CourseIndex(old(rows), c.id) >= 0 ==>
                var i := CourseIndex(old(rows), c.id);
                (res.Ok? <==> c.code.Some? && c.title.Some? && c.capacity.Some? && c.enrolled.Some?
                              && !CodeTakenExcept(old(rows), c.code.value, i))
      ensures CourseIndex(old(rows), c.id) < 0 && (c.code.None? || c.title.None? || c.capacity.None?) ==>
                res == Err(ConstraintViolation(NotNull))
      ensures CourseIndex(old(rows), c.id) >= 0
              && (c.code.None? || c.title.None? || c.capacity.None? || c.enrolled.None?) ==>
                res == Err(ConstraintViolation(NotNull))
      ensures CourseIndex(old(rows), c.id) >= 0 && res.Ok? ==>
                var i := CourseIndex(old(rows), c.id);
                rows == old(rows)[i := res.value] && Some(res.value.enrolled) == c.enrolled
                && res.value.createdAt == old(rows)[i].createdAt
    {
      var at := CourseIndex(rows, c.id);
      var row;
      if at < 0 {
        var managed := new Course.CopyOf(c);
        managed.OnCreate(now);
        if !managed.Complete() {
          return Err(ConstraintViolation(NotNull));
        }
        row := managed.Row();
      } else {
        if c.code.None? || c.title.None? || c.capacity.None? || c.enrolled.None? {
          return Err(ConstraintViolation(NotNull));
        }
        row := CourseRow(c.id, c.code.value, c.title.value, c.instructor, c.capacity.value, c.enrolled.value,
                         rows[at].createdAt);
      }
      var written := WriteCourse(rows, row);
      if written.Err? {
        return Err(written.failure);
      }
      rows := written.value;
      res := Ok(row);
    }

    /** `deleteById` of a stored id: that row alone is removed. */
    method DeleteById(id: string)
      requires Valid()
      modifies this
      ensures Valid()
      ensures CourseIndex(old(rows), id) >= 0 ==> rows == RemoveAt(old(rows), CourseIndex(old(rows), id))
      ensures CourseIndex(old(rows), id) < 0 ==> rows == old(rows)
    {
      var at := CourseIndex(rows, id);
      if at >= 0 {
        rows := RemoveAt(rows, at);
      }
    }
  }
}

=== FILE: course_service.dfy ===
/**
 * `CourseService` of the catalog: lookups, creation with a unique code,
 * full update (which keeps id, creation time and, when none is given, the
 * enrolled count), the partial update of `enrolled`, and deletion.
 */
module CourseService {
  import opened Common
  import opened Tables
  import opened CourseEntity
  import opened CourseRepository

  class CourseService {
    const courses: CourseTable

    ghost predicate Valid()
      reads this, courses
    {
      courses.Valid()
    }

    constructor (courses: CourseTable)
      ensures this.courses == courses
    {
      this.courses := courses;
    }

    /** `findById`: the course with that id, or NotFound. */
    function FindById(id: string): (r: Result<CourseRow>)
      reads this, courses
      ensures r.Ok? ==> r.value in courses.rows && r.value.id == id
      ensures r.Err? <==> !ExistsById(courses.rows, id)
      ensures r.Err? ==> r.failure == NotFound("Course", id)
    {
      match FindCourseById(courses.rows, id)
      case None => Err(NotFound("Course", id))
      case Some(c) => Ok(c)
    }

    /** `findByCode`: the course with that code, or NotFound. */
    function FindByCode(code: string): (r: Result<CourseRow>)
      reads this, courses
      ensures r.Ok? ==> r.value in courses.rows && r.value.code == code
      ensures r.Err? <==> !ExistsByCode(courses.rows, code)
      ensures r.Err? ==> r.failure == NotFound("Course", "code: " + code)
    {
      ExistsByCodeIffFound(courses.rows, code);
      match CourseRepository.FindByCode(courses.rows, code)
      case None => Err(NotFound("Course", "code: " + code))
      case Some(c) => Ok(c)
    }

    /**
     * `create`: refused when a course already has the code; otherwise the
     * course is saved (`existsByCode` of a null code finds nothing, and the
     * NOT NULL column then rejects the row).
     */
    method Create(course: Course, now: Timestamp) returns (r: Result<CourseRow>)
      requires Valid()
      modifies courses
      ensures Valid()
      ensures r.Err? ==> courses.rows == old(courses.rows)
      ensures course.code.Some? && ExistsByCode(old(courses.rows), course.code.value) ==>
                r == Err(Business(CourseCodeTaken(course.code.value)))
      ensures course.code.Some? && !ExistsByCode(old(courses.rows), course.code.value)
              && course.title.Some? && course.capacity.Some? && CourseIndex(old(courses.rows), course.id) < 0 ==>
                r.Ok? && courses.rows == old(courses.rows) + [r.value]
                && r.value.id == course.id && r.value.code == course.code.value
                && Some(r.value.title) == course.title && Some(r.value.capacity) == course.capacity
                && r.value.instructor == course.instructor
                && r.value.enrolled == (if course.enrolled.Some? then course.enrolled.value else 0)
                && r.value.createdAt == (if course.createdAt.Some? then course.createdAt.value else now)
      ensures course.code.None? && CourseIndex(old(courses.rows), course.id) < 0 ==>
                r == Err(ConstraintViolation(NotNull))
      ensures course.code.Some? && !ExistsByCode(old(courses.rows), course.code.value)
              && course.title.Some? && course.capacity.Some? && course.enrolled.Some?
              && CourseIndex(old(courses.rows), course.id) >= 0 ==>
                var i := CourseIndex(old(courses.rows), course.id);
                r.Ok? && courses.rows == old(courses.rows)[i := r.value]
                && r.value == CourseRow(course.id, course.code.value, course.title.value, course.instructor,
                                        course.capacity.value, course.enrolled.value, old(courses.rows)[i].createdAt)
      ensures !(course.code.Some? && ExistsByCode(old(courses.rows), course.code.value))
              && CourseIndex(old(courses.rows), course.id) >= 0 && course.enrolled.None? ==>
                r == Err(ConstraintViolation(NotNull))
    {
      if course.code.Some? && ExistsByCode(courses.rows, course.code.value) {
        return Err(Business(CourseCodeTaken(course.code.value)));
      }
      if course.code.Some? {
        ExistsByCodeIffFound(courses.rows, course.code.value);
      }
      r := courses.Save(course, now);
    }

    /**
     * `update(id, course)`: NotFound for an unknown id; a changed code must
     * not be in use; the incoming course gets the stored id and creation
     * time, and the stored `enrolled` when its own is null, and is then
     * saved over the stored row.
     */
    method Update(id: string, course: Course, now: Timestamp) returns (r: Result<CourseRow>)
      requires Valid()
      modifies courses, course
      ensures Valid()
      ensures r.Err? ==> courses.rows == old(courses.rows)
      ensures CourseIndex(old(courses.rows), id) < 0 ==> r == Err(NotFound("Course", id))
      ensures CourseIndex(old(courses.rows), id) >= 0 ==>
                var i := CourseIndex(old(courses.rows), id);
                var existing := old(courses.rows)[i];
                && (old(course.code).Some? && old(course.code) != Some(existing.code)
                    && ExistsByCode(old(courses.rows), old(course.code).value) ==>
                      r == Err(Business(CourseCodeTaken(old(course.code).value))))
                && (r.Ok? ==>
                      && r.value.id == id && r.value.createdAt == existing.createdAt
                      && Some(r.value.code) == old(course.code) && Some(r.value.title) == old(course.title)
                      && r.value.instructor == old(course.instructor)
                      && Some(r.value.capacity) == old(course.capacity)
                      && r.value.enrolled == (if old(course.enrolled).Some? then old(course.enrolled).value
                                              else existing.enrolled)
                      && courses.rows == old(courses.rows)[i := r.value])
                && (((old(course.code) == Some(existing.code)
                      || (old(course.code).Some? && !ExistsByCode(old(courses.rows), old(course.code).value)))
                     && old(course.title).Some? && old(course.capacity).Some?)
                    ==> r.Ok?)
    {
      var i := CourseIndex(courses.rows, id);
      if i < 0 {
        return Err(NotFound("Course", id));
      }
      var existing := courses.rows[i];
      if course.code != Some(existing.code) {
        if course.code.Some? && ExistsByCode(courses.rows, course.code.value) {
          return Err(Business(CourseCodeTaken(course.code.value)));
        }
        if course.code.Some? {
          ExistsByCodeIffFound(courses.rows, course.code.value);
        }
      }
      course.id := id;
      course.createdAt := Some(existing.createdAt);
      if course.enrolled.None? {
        course.SetEnrolled(Some(existing.enrolled));
      }
      r := courses.Save(course, now);
    }

    /**
     * `partialUpdate(id, enrolled)`: NotFound for an unknown id; otherwise
     * only `enrolled` changes, to the given value whatever the capacity, and
     * a null value leaves the course as it was.
     */
    method PartialUpdate(id: string, enrolled: Option<int>, now: Timestamp) returns (r: Result<CourseRow>)
      requires Valid()
      modifies courses
      ensures Valid()
      ensures CourseIndex(old(courses.rows), id) < 0 ==>
                r == Err(NotFound("Course", id)) && courses.rows == old(courses.rows)
      ensures CourseIndex(old(courses.rows), id) >= 0 ==>
                var i := CourseIndex(old(courses.rows), id);
                var existing := old(courses.rows)[i];
                var updated := if enrolled.Some? then existing.(enrolled := enrolled.value) else existing;
                r == Ok(updated) && courses.rows == old(courses.rows)[i := updated]
    {
      var i := CourseIndex(courses.rows, id);
      if i < 0 {
        return Err(NotFound("Course", id));
      }
      var existing := new Course.Load(courses.rows[i]);
      if enrolled.Some? {
        existing.SetEnrolled(enrolled);
      }
      r := courses.Save(existing, now);
      assert r.Ok?;
    }

    /** `deleteById`: NotFound for an unknown id, and nothing is deleted; otherwise that course alone is removed. */
    method DeleteById(id: string) returns (r: Result<()>)
      requires Valid()
      modifies courses
      ensures Valid()
      ensures !ExistsById(old(courses.rows), id) ==>
                r == Err(NotFound("Course", id)) && courses.rows == old(courses.rows)
      ensures ExistsById(old(courses.rows), id) ==>
                r == Ok(()) && courses.rows == RemoveAt(old(courses.rows), CourseIndex(old(courses.rows), id))
    {
      if !ExistsById(courses.rows, id) {
        return Err(NotFound("Course", id));
      }
      courses.DeleteById(id);
      r := Ok(());
    }
  }
}

=== FILE: enrollment_entity.dfy ===
/**
 * The `Enrollment` JPA entity: a mutable object whose nullable fields are
 * filled by constructors and setters, and the row it becomes in the
 * `enrollments` table, where every column is NOT NULL.
 */
module EnrollmentEntity {
  import opened Common

  /** ACTIVE -> DROPPED is the only transition any operation performs; COMPLETED is never reached. */
  datatype EnrollmentStatus = Active | Dropped | Completed

  /** A persisted row of the `enrollments` table. */
  datatype EnrollmentRow = EnrollmentRow(
    id: string,
    courseId: string,
    studentId: string,
    status: EnrollmentStatus,
    enrolledAt: Timestamp)

  class Enrollment {
    var id: string
    var courseId: Option<string>
    var studentId: Option<string>
    var status: Option<EnrollmentStatus>
    var enrolledAt: Option<Timestamp>

    /** `new Enrollment()`: a fresh random id and status ACTIVE, nothing else set. */
    constructor (freshId: string)
      ensures id == freshId && status == Some(Active)
      ensures courseId == None && studentId == None && enrolledAt == None
    {
      id := freshId;
      courseId := None;
      studentId := None;
      status := Some(Active);
      enrolledAt := None;
    }

    /** `new Enrollment(courseId, studentId)`: a fresh random id, the pair, status ACTIVE. */
    constructor ForPair(freshId: string, courseId: string, studentId: string)
      ensures id == freshId && status == Some(Active)
      ensures this.courseId == Some(courseId) && this.studentId == Some(studentId)
      ensures enrolledAt == None
    {
      id := freshId;
      this.courseId := Some(courseId);
      this.studentId := Some(studentId);
      status := Some(Active);
      enrolledAt := None;
    }

    /** The managed entity JPA materialises when it loads a row. */
    constructor Load(row: EnrollmentRow)
      ensures Complete() && Row() == row
    {
      id := row.id;
      courseId := Some(row.courseId);
      studentId := Some(row.studentId);
      status := Some(row.status);
      enrolledAt := Some(row.enrolledAt);
    }

    /** The managed copy `merge` makes of a detached entity. */
    constructor CopyOf(other: Enrollment)
      ensures id == other.id && courseId == other.courseId && studentId == other.studentId
      ensures status == other.status && enrolledAt == other.enrolledAt
    {
      id := other.id;
      courseId := other.courseId;
      studentId := other.studentId;
      status := other.status;
      enrolledAt := other.enrolledAt;
    }

    /**
     * `@PrePersist onCreate`: fills a null `enrolledAt` with the current time
     * and a null status with ACTIVE; a value already set is never overwritten.
     */
    method OnCreate(now: Timestamp)
      modifies this
      ensures enrolledAt == (if old(enrolledAt).None? then Some(now) else old(enrolledAt))
      ensures status == (if old(status).None? then Some(Active) else old(status))
      ensures id == old(id) && courseId == old(courseId) && studentId == old(studentId)
    {
      if enrolledAt.None? {
        enrolledAt := Some(now);
      }
      if status.None? {
        status := Some(Active);
      }
    }

    /** Every NOT NULL column has a value. */
    predicate Complete()
      reads this
    {
      courseId.Some? && studentId.Some? && status.Some? && enrolledAt.Some?
    }

    /** The row this entity is written as. */
    function Row(): (r: EnrollmentRow)
      reads this
      requires Complete()
      ensures r.id == id && Some(r.courseId) == courseId && Some(r.studentId) == studentId
      ensures Some(r.status) == status && Some(r.enrolledAt) == enrolledAt
    {
      EnrollmentRow(id, courseId.value, studentId.value, status.value, enrolledAt.value)
    }
  }
}

=== FILE: enrollment_repository.dfy ===
/**
 * The `enrollments` table and the derived queries of `EnrollmentRepository`.
 * Queries are functions over the rows in insertion order; `save` is the
 * one writer, an insert for a new id and a merge for a known one, both
 * subject to the table's unique key on (course_id, student_id).
 */
module EnrollmentRepository {
  import opened Common
  import opened Tables
  import opened EnrollmentEntity

  /** The unique key `uk_course_student` of the table. */
  const PairKey: string := "uk_course_student"
  /** A NOT NULL column left null. */
  const NotNull: string := "NOT NULL"

  // ----- row predicates shared by the list and count queries -----

  function HasId(id: string): EnrollmentRow -> bool
  {
    (r: EnrollmentRow) => r.id == id
  }

  function OfCourse(courseId: string): EnrollmentRow -> bool
  {
    (r: EnrollmentRow) => r.courseId == courseId
  }

  function OfStudent(studentId: string): EnrollmentRow -> bool
  {
    (r: EnrollmentRow) => r.studentId == studentId
  }

  function OfCourseWithStatus(courseId: string, status: EnrollmentStatus): EnrollmentRow -> bool
  {
    (r: EnrollmentRow) => r.courseId == courseId && r.status == status
  }

  function OfStudentWithStatus(studentId: string, status: EnrollmentStatus): EnrollmentRow -> bool
  {
    (r: EnrollmentRow) => r.studentId == studentId && r.status == status
  }

  function OfPairWithStatus(courseId: string, studentId: string, status: EnrollmentStatus): EnrollmentRow -> bool
  {
    (r: EnrollmentRow) => r.courseId == courseId && r.studentId == studentId && r.status == status
  }

  // ----- table invariants -----

  /** The primary key: no two rows share an id. */
  ghost predicate UniqueIds(t: seq<EnrollmentRow>)
  {
    forall i, j :: 0 <= i < j < |t| ==> t[i].id != t[j].id
  }

  /** The unique key `uk_course_student`: no two rows share a (course, student) pair, whatever their status. */
  ghost predicate UniquePairs(t: seq<EnrollmentRow>)
  {
    forall i, j :: 0 <= i < j < |t| ==> t[i].courseId != t[j].courseId || t[i].studentId != t[j].studentId
  }

  /** The invariant the duplicate guard aims at: at most one ACTIVE row per (course, student) pair. */
  ghost predicate AtMostOneActive(t: seq<EnrollmentRow>)
  {
    forall i, j :: 0 <= i < j < |t| && t[i].status == Active && t[j].status == Active ==>
      t[i].courseId != t[j].courseId || t[i].studentId != t[j].studentId
  }

  ghost predicate TableValid(t: seq<EnrollmentRow>)
  {
    UniqueIds(t) && UniquePairs(t)
  }

  /** The storage key is stronger than the duplicate guard's invariant. */
  lemma UniquePairsGiveAtMostOneActive(t: seq<EnrollmentRow>)
    requires UniquePairs(t)
    ensures AtMostOneActive(t)
  {
  }

  // ----- derived queries -----

  /** `findById`: the row with that id, if any. */
  function FindById(t: seq<EnrollmentRow>, id: string): (r: Option<EnrollmentRow>)
    ensures r.Some? ==> r.value in t && r.value.id == id
    ensures r.None? <==> forall i :: 0 <= i < |t| ==> t[i].id != id
  {
    match IndexWhere(t, HasId(id))
    case None => None
    case Some(i) => Some(t[i])
  }

  /** `findByCourseId`: every row of the course, whatever its status. */
  function FindByCourseId(t: seq<EnrollmentRow>, courseId: string): (r: seq<EnrollmentRow>)
    ensures forall i :: 0 <= i < |r| ==> r[i] in t && r[i].courseId == courseId
    ensures forall i :: 0 <= i < |t| && t[i].courseId == courseId ==> t[i] in r
  {
    Filter(t, OfCourse(courseId))
  }

  /** `findByStudentId`: every row of the student, whatever its status. */
  function FindByStudentId(t: seq<EnrollmentRow>, studentId: string): (r: seq<EnrollmentRow>)
    ensures forall i :: 0 <= i < |r| ==> r[i] in t && r[i].studentId == studentId
    ensures forall i :: 0 <= i < |t| && t[i].studentId == studentId ==> t[i] in r
  {
    Filter(t, OfStudent(studentId))
  }

  /** `findByCourseIdAndStatus`: exactly the rows matching both filters. */
  function FindByCourseIdAndStatus(t: seq<EnrollmentRow>, courseId: string, status: EnrollmentStatus)
    : (r: seq<EnrollmentRow>)
    ensures forall i :: 0 <= i < |r| ==> r[i] in t && r[i].courseId == courseId && r[i].status == status
    ensures forall i :: 0 <= i < |t| && t[i].courseId == courseId && t[i].status == status ==> t[i] in r
  {
    Filter(t, OfCourseWithStatus(courseId, status))
  }

  /** `findByStudentIdAndStatus`: exactly the rows matching both filters. */
  function FindByStudentIdAndStatus(t: seq<EnrollmentRow>, studentId: string, status: EnrollmentStatus)
    : (r: seq<EnrollmentRow>)
    ensures forall i :: 0 <= i < |r| ==> r[i] in t && r[i].studentId == studentId && r[i].status == status
    ensures forall i :: 0 <= i < |t| && t[i].studentId == studentId && t[i].status == status ==> t[i] in r
  {
    Filter(t, OfStudentWithStatus(studentId, status))
  }

  /** `findByCourseIdAndStudentIdAndStatus`: a row matching all three filters, if any. */
  function FindByCourseIdAndStudentIdAndStatus(
    t: seq<EnrollmentRow>, courseId: string, studentId: string, status: EnrollmentStatus)
    : (r: Option<EnrollmentRow>)
    ensures r.Some? ==> r.value in t && r.value.courseId == courseId
                        && r.value.studentId == studentId && r.value.status == status
    ensures r.None? <==> forall i :: 0 <= i < |t| ==>
                           !(t[i].courseId == courseId && t[i].studentId == studentId && t[i].status == status)
  {
    match IndexWhere(t, OfPairWithStatus(courseId, studentId, status))
    case None => None
    case Some(i) => Some(t[i])
  }

  /** The duplicate guard: `COUNT(e) > 0` over the ACTIVE rows of the pair. */
  predicate ExistsByCourseIdAndStudentId(t: seq<EnrollmentRow>, courseId: string, studentId: string)
  {
    Count(t, OfPairWithStatus(courseId, studentId, Active)) > 0
  }

  /** `countByCourseId`: the number of ACTIVE rows of the course. */
  function CountByCourseId(t: seq<EnrollmentRow>, courseId: string): nat
  {
    Count(t, OfCourseWithStatus(courseId, Active))
  }

  /** `countByStudentIdAndStatus`. */
  function CountByStudentIdAndStatus(t: seq<EnrollmentRow>, studentId: string, status: EnrollmentStatus): nat
  {
    Count(t, OfStudentWithStatus(studentId, status))
  }

  /** The duplicate guard is true iff some row has the course, the student and status ACTIVE. */
  lemma ExistsByCourseIdAndStudentIdIff(t: seq<EnrollmentRow>, courseId: string, studentId: string)
    ensures ExistsByCourseIdAndStudentId(t, courseId, studentId) <==>
            exists i :: 0 <= i < |t| && t[i].courseId == courseId && t[i].studentId == studentId
                                     && t[i].status == Active
  {
    CountPositive(t, OfPairWithStatus(courseId, studentId, Active));
  }

  /** `countByCourseId` is the number of ACTIVE rows listed for the course. */
  lemma CountByCourseIdIsActiveListSize(t: seq<EnrollmentRow>, courseId: string)
    ensures CountByCourseId(t, courseId) == |FindByCourseIdAndStatus(t, courseId, Active)|
  {
    CountIsFilterLength(t, OfCourseWithStatus(courseId, Active));
  }

  /** `countByStudentIdAndStatus` is the size of `findByStudentIdAndStatus` for the same arguments. */
  lemma CountByStudentIdAndStatusIsListSize(t: seq<EnrollmentRow>, studentId: string, status: EnrollmentStatus)
    ensures CountByStudentIdAndStatus(t, studentId, status) == |FindByStudentIdAndStatus(t, studentId, status)|
  {
    CountIsFilterLength(t, OfStudentWithStatus(studentId, status));
  }

  // ----- the write path -----

  /** Some row other than position `except` already holds the pair. */
  predicate PairTakenExcept(t: seq<EnrollmentRow>, courseId: string, studentId: string, except: int)
  {
    exists j | 0 <= j < |t| :: j != except && t[j].courseId == courseId && t[j].studentId == studentId
  }

  /**
   * The effect of writing the row `r` on the table: an insert when no row has
   * its id, a replacement of that row otherwise; rejected when another row
   * already holds the same (course, student) pair.
   */
  function WriteRow(t: seq<EnrollmentRow>, r: EnrollmentRow): (res: Result<seq<EnrollmentRow>>)
    ensures res.Err? ==> res.failure == ConstraintViolation(PairKey)
    ensures TableValid(t) && res.Ok? ==> TableValid(res.value)
    ensures (forall i :: 0 <= i < |t| ==> t[i].id != r.id) ==>
              (res.Ok? <==> forall i :: 0 <= i < |t| ==> t[i].courseId != r.courseId || t[i].studentId != r.studentId)
    ensures (forall i :: 0 <= i < |t| ==> t[i].id != r.id) && res.Ok? ==> res.value == t + [r]
    ensures IndexWhere(t, HasId(r.id)).Some? ==>
              var i := IndexWhere(t, HasId(r.id)).value;
              && (res.Ok? <==> !PairTakenExcept(t, r.courseId, r.studentId, i))
              && (res.Ok? ==> res.value == t[i := r])
  {
    match IndexWhere(t, HasId(r.id))
    case None =>
      if PairTakenExcept(t, r.courseId, r.studentId, -1) then Err(ConstraintViolation(PairKey))
      else Ok(t + [r])
    case Some(i) =>
      if PairTakenExcept(t, r.courseId, r.studentId, i) then Err(ConstraintViolation(PairKey))
      else
        assert t[i := r][i] == r;
        Ok(t[i := r])
  }

  /** Replacing one row by a row with the same id, course and student keeps the table valid. */
  lemma {:induction false} ReplaceKeepsValid(t: seq<EnrollmentRow>, i: nat, r: EnrollmentRow)
    requires TableValid(t) && i < |t|
    requires r.id == t[i].id && r.courseId == t[i].courseId && r.studentId == t[i].studentId
    ensures TableValid(t[i := r])
    ensures WriteRow(t, r) == Ok(t[i := r])
  {
    var p := IndexWhere(t, HasId(r.id));
    assert HasId(r.id)(t[i]);
    assert p == Some(i);
  }

  /** A mutable `enrollments` table. */
  class EnrollmentTable {
    var rows: seq<EnrollmentRow>

    ghost predicate Valid()
      reads this
    {
      TableValid(rows)
    }

    constructor ()
      ensures Valid() && rows == []
    {
      rows := [];
    }

    /**
     * `save(e)`. A new id is persisted: the managed copy runs `onCreate`
     * before its row is inserted. A known id is merged: `onCreate` does not
     * run and `enrolled_at`, which is not updatable, keeps its stored value.
     * A null NOT NULL column or a taken (course, student) pair is rejected
     * and the table is left as it was.
     */
    method Save(e: Enrollment, now: Timestamp) returns (res: Result<EnrollmentRow>)
      requires Valid()
      modifies this
      ensures Valid()
      ensures res.Err? ==> rows == old(rows)
      ensures res.Ok? ==> res.value.id == e.id && Some(res.value.courseId) == e.courseId
                          && Some(res.value.studentId) == e.studentId
      ensures FindById(old(rows), e.id).None? ==>
                (res.Ok? <==> e.courseId.Some? && e.studentId.Some?
                              && !PairTakenExcept(old(rows), e.courseId.value, e.studentId.value, -1))
      ensures FindById(old(rows), e.id).None? && e.courseId.Some? && e.studentId.Some? && res.Err? ==>
                res.failure == ConstraintViolation(PairKey)
      ensures FindById(old(rows), e.id).None? && res.Ok? ==>
                rows == old(rows) + [res.value]
                && res.value.status == (if e.status.Some? then e.status.value else Active)
                && res.value.enrolledAt == (if e.enrolledAt.Some? then e.enrolledAt.value else now)
      ensures FindById(old(rows), e.id).Some? ==>
                var i := IndexWhere(old(rows), HasId(e.id)).value;
                (res.Ok? <==> e.courseId.Some? && e.studentId.Some? && e.status.Some?
                              && !PairTakenExcept(old(rows), e.courseId.value, e.studentId.value, i))
      ensures FindById(old(rows), e.id).Some? && res.Ok? ==>
                var i := IndexWhere(old(rows), HasId(e.id)).value;
                rows == old(rows)[i := res.value] && Some(res.value.status) == e.status
                && res.value.enrolledAt == old(rows)[i].enrolledAt
    {
      var found := IndexWhere(rows, HasId(e.id));
      if found.None? {
        var managed := new Enrollment.CopyOf(e);
        managed.OnCreate(now);
        if !managed.Complete() {
          return Err(ConstraintViolation(NotNull));
        }
        var row := managed.Row();
        var written := WriteRow(rows, row);
        if written.Err? {
          return Err(written.failure);
        }
        rows := written.value;
        res := Ok(row);
      } else {
        var i := found.value;
        if e.courseId.None? || e.studentId.None? || e.status.None? {
          return Err(ConstraintViolation(NotNull));
        }
        var row := EnrollmentRow(e.id, e.courseId.value, e.studentId.value, e.status.value, rows[i].enrolledAt);
        var written := WriteRow(rows, row);
        if written.Err? {
          return Err(written.failure);
        }
        assert written.value == rows[i := row];
        rows := written.value;
        res := Ok(row);
      }
    }
  }
}

=== FILE: enrollment_service.dfy ===
/**
 * `EnrollmentService`: enrolling a student in a course after a fixed chain
 * of guards (student, course id format, remote course, capacity, duplicate),
 * dropping an enrollment, and the variant that also writes the course's
 * `enrolled` counter back to the catalog.
 *
 * The remote catalog is not modelled: the reply of each call is a parameter,
 * and the calls made are recorded in the ghost `remoteLog`. The counter held
 * by the catalog is the ghost map `catalogEnrolled`.
 */
module EnrollmentService {
  import opened Common
  import opened Tables
  import opened Strings
  import opened EnrollmentEntity
  import opened EnrollmentRepository
  import opened StudentService

  /**
   * What a call to the catalog's `GET /api/courses/{id}` yields: the course's
   * capacity and enrolled count, no course data (a null response or null
   * `data`, or an HTTP 404 where it is caught as such), or a failure (any
   * other exception; with the Feign fallback, every failed call).
   */
  datatype CatalogReply = CourseView(capacity: int, enrolled: int) | Missing | Unreachable

  /** A remote call to the catalog, with the course id as it appears in the path. */
  datatype RemoteCall = GetCourse(courseId: string) | PutEnrolled(courseId: string, count: int)

  /**
   * The guards that follow the remote call: the course must be present,
   * reachable and not full, and the student must not already hold an
   * ACTIVE enrollment in it.
   */
  function CourseGuard(t: seq<EnrollmentRow>, courseId: string, studentId: string, reply: CatalogReply)
    : (r: Option<Failure>)
    ensures r.None? <==> reply.CourseView? && reply.enrolled < reply.capacity
                         && !ExistsByCourseIdAndStudentId(t, courseId, studentId)
    ensures reply.Unreachable? ==> r == Some(Business(CatalogUnreachable))
    ensures reply.Missing? ==> r == Some(NotFound("Course", courseId))
    ensures reply.CourseView? && reply.enrolled >= reply.capacity ==> r == Some(Business(CourseFull))
    ensures reply.CourseView? && reply.enrolled < reply.capacity && ExistsByCourseIdAndStudentId(t, courseId, studentId)
            ==> r == Some(Business(AlreadyEnrolled))
  {
    match reply
    case Unreachable => Some(Business(CatalogUnreachable))
    case Missing => Some(NotFound("Course", courseId))
    case CourseView(capacity, enrolled) =>
      if enrolled >= capacity then Some(Business(CourseFull))
      else if ExistsByCourseIdAndStudentId(t, courseId, studentId) then Some(Business(AlreadyEnrolled))
      else None
  }

  /**
   * The guard chain of `enroll`, in order: an unknown student, then a course
   * id that is not a `long`, then the course guards. `None` when every guard
   * passes.
   */
  function EnrollGuard(st: seq<Student>, t: seq<EnrollmentRow>, courseId: string, studentId: string,
                       reply: CatalogReply): (r: Option<Failure>)
    ensures r.None? <==> ExistsByStudentId(st, studentId) && ParseLong(courseId).Some?
                         && reply.CourseView? && reply.enrolled < reply.capacity
                         && !ExistsByCourseIdAndStudentId(t, courseId, studentId)
    ensures !ExistsByStudentId(st, studentId) ==> r == Some(NotFound("Student", studentId))
    ensures ExistsByStudentId(st, studentId) && ParseLong(courseId).None? ==>
              r == Some(Business(InvalidCourseIdFormat))
    ensures ExistsByStudentId(st, studentId) && ParseLong(courseId).Some? ==>
              r == CourseGuard(t, courseId, studentId, reply)
  {
    if !ExistsByStudentId(st, studentId) then Some(NotFound("Student", studentId))
    else if ParseLong(courseId).None? then Some(Business(InvalidCourseIdFormat))
    else CourseGuard(t, courseId, studentId, reply)
  }

  /** The guard chain of the counter variant, which sends the course id unparsed. */
  function CountingEnrollGuard(st: seq<Student>, t: seq<EnrollmentRow>, courseId: string, studentId: string,
                               reply: CatalogReply): (r: Option<Failure>)
    ensures r.None? <==> ExistsByStudentId(st, studentId)
                         && reply.CourseView? && reply.enrolled < reply.capacity
                         && !ExistsByCourseIdAndStudentId(t, courseId, studentId)
    ensures !ExistsByStudentId(st, studentId) ==> r == Some(NotFound("Student", studentId))
    ensures ExistsByStudentId(st, studentId) ==> r == CourseGuard(t, courseId, studentId, reply)
  {
    if !ExistsByStudentId(st, studentId) then Some(NotFound("Student", studentId))
    else CourseGuard(t, courseId, studentId, reply)
  }

  /** The row a successful enrollment inserts. */
  function NewEnrollment(freshId: string, courseId: string, studentId: string, now: Timestamp): EnrollmentRow
  {
    EnrollmentRow(freshId, courseId, studentId, Active, now)
  }

  /**
   * The effect of `unenroll(id)` on the table: NotFound for an unknown id, a
   * business error for a record that is not ACTIVE, otherwise that one
   * record becomes DROPPED.
   */
  function DropEnrollment(t: seq<EnrollmentRow>, id: string): (r: Result<seq<EnrollmentRow>>)
    ensures FindById(t, id).None? ==> r == Err(NotFound("Enrollment", id))
    ensures FindById(t, id).Some? && FindById(t, id).value.status != Active ==> r == Err(Business(NotActive))
    ensures r.Ok? <==> FindById(t, id).Some? && FindById(t, id).value.status == Active
    ensures r.Ok? ==> exists i :: 0 <= i < |t| && t[i].id == id && t[i].status == Active
                                  && r.value == t[i := t[i].(status := Dropped)]
    ensures TableValid(t) && r.Ok? ==> TableValid(r.value)
  {
    match IndexWhere(t, HasId(id))
    case None => Err(NotFound("Enrollment", id))
    case Some(i) =>
      if t[i].status != Active then Err(Business(NotActive))
      else
        ReplaceKeepsValidIfValid(t, i, t[i].(status := Dropped));
        Ok(t[i := t[i].(status := Dropped)])
  }

  /** `ReplaceKeepsValid` for a table that may or may not be valid. */
  lemma ReplaceKeepsValidIfValid(t: seq<EnrollmentRow>, i: nat, r: EnrollmentRow)
    requires i < |t|
    requires r.id == t[i].id && r.courseId == t[i].courseId && r.studentId == t[i].studentId
    ensures TableValid(t) ==> TableValid(t[i := r])
  {
    if TableValid(t) {
      ReplaceKeepsValid(t, i, r);
    }
  }

  class EnrollmentService {
    const enrollments: EnrollmentTable
    const students: StudentTable
    /** The calls made to the catalog, oldest first. */
    ghost var remoteLog: seq<RemoteCall>
    /** The `enrolled` counter the catalog holds, by course id, as far as this service wrote it. */
    ghost var catalogEnrolled: map<string, int>

    ghost predicate Valid()
      reads this, enrollments, students
    {
      enrollments.Valid() && students.Valid()
    }

    constructor (enrollments: EnrollmentTable, students: StudentTable)
      ensures this.enrollments == enrollments && this.students == students
      ensures remoteLog == [] && catalogEnrolled == map[]
    {
      this.enrollments := enrollments;
      this.students := students;
      remoteLog := [];
      catalogEnrolled := map[];
    }

    /** `findById`: the enrollment with that id, or NotFound. */
    function FindById(id: string): (r: Result<EnrollmentRow>)
      reads this, enrollments
      ensures r.Ok? ==> r.value in enrollments.rows && r.value.id == id
      ensures r.Err? <==> forall i :: 0 <= i < |enrollments.rows| ==> enrollments.rows[i].id != id
      ensures r.Err? ==> r.failure == NotFound("Enrollment", id)
    {
      match EnrollmentRepository.FindById(enrollments.rows, id)
      case None => Err(NotFound("Enrollment", id))
      case Some(e) => Ok(e)
    }

    /** `findByStudentId`: every enrollment of an existing student, whatever its status. */
    function FindByStudentId(studentId: string): (r: Result<seq<EnrollmentRow>>)
      reads this, enrollments, students
      ensures r.Err? <==> !ExistsByStudentId(students.rows, studentId)
      ensures r.Err? ==> r.failure == NotFound("Student", "studentId: " + studentId)
      ensures r.Ok? ==> (forall i :: 0 <= i < |r.value| ==>
                           r.value[i] in enrollments.rows && r.value[i].studentId == studentId)
      ensures r.Ok? ==> (forall i :: 0 <= i < |enrollments.rows| && enrollments.rows[i].studentId == studentId
                                     ==> enrollments.rows[i] in r.value)
    {
      if FindStudentByStudentId(students.rows, studentId).None? then
        Err(NotFound("Student", "studentId: " + studentId))
      else
        Ok(EnrollmentRepository.FindByStudentId(enrollments.rows, studentId))
    }

    /**
     * `enroll(courseId, studentId)`. The guard chain decides every failure;
     * no remote call is made unless the student exists and the course id is
     * a `long`. When every guard passes, one ACTIVE row with the fresh id is
     * inserted, unless the (course, student) pair is already held by a row
     * of any status, which the table's unique key rejects.
     */
    method Enroll(courseId: string, studentId: string, reply: CatalogReply, freshId: string, now: Timestamp)
      returns (r: Result<EnrollmentRow>)
      requires Valid()
      modifies this, enrollments
      ensures Valid()
      ensures catalogEnrolled == old(catalogEnrolled)
      ensures remoteLog == old(remoteLog)
                           + (if ExistsByStudentId(students.rows, studentId) && ParseLong(courseId).Some?
                              then [GetCourse(LongToString(ParseLong(courseId).value))] else [])
      ensures r.Err? ==> enrollments.rows == old(enrollments.rows)
      ensures EnrollGuard(students.rows, old(enrollments.rows), courseId, studentId, reply).Some? ==>
                r == Err(EnrollGuard(students.rows, old(enrollments.rows), courseId, studentId, reply).value)
      ensures EnrollGuard(students.rows, old(enrollments.rows), courseId, studentId, reply).None?
              && EnrollmentRepository.FindById(old(enrollments.rows), freshId).None? ==>
                if PairTakenExcept(old(enrollments.rows), courseId, studentId, -1)
                then r == Err(ConstraintViolation(PairKey))
                else r == Ok(NewEnrollment(freshId, courseId, studentId, now))
                     && enrollments.rows == old(enrollments.rows) + [r.value]
    {
      var student := FindStudentByStudentId(students.rows, studentId);
      if student.None? {
        return Err(NotFound("Student", studentId));
      }
      var courseIdLong := ParseLong(courseId);
      if courseIdLong.None? {
        return Err(Business(InvalidCourseIdFormat));
      }
      remoteLog := remoteLog + [GetCourse(LongToString(courseIdLong.value))];
      var guard := CourseGuard(enrollments.rows, courseId, studentId, reply);
      if guard.Some? {
        return Err(guard.value);
      }
      r := SaveNew(courseId, studentId, freshId, now);
    }

    /** Builds the new ACTIVE enrollment through its setters and saves it. */
    method SaveNew(courseId: string, studentId: string, freshId: string, now: Timestamp)
      returns (r: Result<EnrollmentRow>)
      requires Valid()
      modifies enrollments
      ensures Valid()
      ensures r.Err? ==> enrollments.rows == old(enrollments.rows)
      ensures EnrollmentRepository.FindById(old(enrollments.rows), freshId).None? ==>
                if PairTakenExcept(old(enrollments.rows), courseId, studentId, -1)
                then r == Err(ConstraintViolation(PairKey))
                else r == Ok(NewEnrollment(freshId, courseId, studentId, now))
                     && enrollments.rows == old(enrollments.rows) + [r.value]
    {
      var enrollment := new Enrollment(freshId);
      enrollment.courseId := Some(courseId);
      enrollment.studentId := Some(studentId);
      enrollment.status := Some(Active);
      enrollment.enrolledAt := Some(now);
      r := enrollments.Save(enrollment, now);
    }

    /**
     * `unenroll(id)`: the managed entity is loaded, checked to be ACTIVE,
     * set to DROPPED and saved; the table changes as `DropEnrollment` says.
     */
    method Unenroll(id: string, now: Timestamp) returns (r: Result<()>)
      requires Valid()
      modifies enrollments
      ensures Valid()
      ensures DropEnrollment(old(enrollments.rows), id).Err? ==>
                r == Err(DropEnrollment(old(enrollments.rows), id).failure)
                && enrollments.rows == old(enrollments.rows)
      ensures DropEnrollment(old(enrollments.rows), id).Ok? ==>
                r == Ok(()) && enrollments.rows == DropEnrollment(old(enrollments.rows), id).value
    {
      var found := IndexWhere(enrollments.rows, HasId(id));
      if found.None? {
        return Err(NotFound("Enrollment", id));
      }
      var i := found.value;
      var enrollment := new Enrollment.Load(enrollments.rows[i]);
      if enrollment.status != Some(Active) {
        return Err(Business(NotActive));
      }
      enrollment.status := Some(Dropped);
      var t := enrollments.rows;
      assert !PairTakenExcept(t, t[i].courseId, t[i].studentId, i);
      var saved := enrollments.Save(enrollment, now);
      assert saved.Ok?;
      assert saved.value == t[i].(status := Dropped);
      r := Ok(());
    }

    // ----- the counter-writing variant -----

    /**
     * `updateCourseEnrolledCount`: a PUT of the new count to the catalog;
     * the write takes effect only when `writeOk`, and a failure is swallowed.
     */
    method UpdateCourseEnrolledCount(courseId: string, newCount: int, writeOk: bool)
      modifies this
      ensures remoteLog == old(remoteLog) + [PutEnrolled(courseId, newCount)]
      ensures catalogEnrolled == if writeOk then old(catalogEnrolled)[courseId := newCount]
                                 else old(catalogEnrolled)
    {
      remoteLog := remoteLog + [PutEnrolled(courseId, newCount)];
      if writeOk {
        catalogEnrolled := catalogEnrolled[courseId := newCount];
      }
    }

    /**
     * `enroll` of the counter variant: the course id goes to the catalog
     * unparsed. Once the guards pass, `save` only registers the new row
     * (its id is assigned by the constructor, so `save` merges and the
     * insert waits for the commit); the fetched `enrolled` plus one is then
     * written back, and the row is written when the transaction commits.
     * A unique-key failure at commit therefore comes after the write-back,
     * which is not undone, and a failed write-back leaves the row in place.
     */
    method EnrollWithCount(courseId: string, studentId: string, reply: CatalogReply, freshId: string,
                           now: Timestamp, writeOk: bool)
      returns (r: Result<EnrollmentRow>)
      requires Valid()
      modifies this, enrollments
      ensures Valid()
      ensures r.Err? ==> enrollments.rows == old(enrollments.rows)
      ensures CountingEnrollGuard(students.rows, old(enrollments.rows), courseId, studentId, reply).Some? ==>
                && r == Err(CountingEnrollGuard(students.rows, old(enrollments.rows), courseId, studentId, reply).value)
                && catalogEnrolled == old(catalogEnrolled)
                && remoteLog == if ExistsByStudentId(students.rows, studentId) then old(remoteLog) + [GetCourse(courseId)]
                                else old(remoteLog)
      ensures CountingEnrollGuard(students.rows, old(enrollments.rows), courseId, studentId, reply).None? ==>
                && reply.CourseView?
                && remoteLog == old(remoteLog) + [GetCourse(courseId), PutEnrolled(courseId, reply.enrolled + 1)]
                && catalogEnrolled == if writeOk then old(catalogEnrolled)[courseId := reply.enrolled + 1]
                                      else old(catalogEnrolled)
      ensures CountingEnrollGuard(students.rows, old(enrollments.rows), courseId, studentId, reply).None?
              && EnrollmentRepository.FindById(old(enrollments.rows), freshId).None? ==>
                if PairTakenExcept(old(enrollments.rows), courseId, studentId, -1)
                then r == Err(ConstraintViolation(PairKey))
                else r == Ok(NewEnrollment(freshId, courseId, studentId, now))
                     && enrollments.rows == old(enrollments.rows) + [r.value]
      ensures CountingEnrollGuard(students.rows, old(enrollments.rows), courseId, studentId, reply).None?
              && EnrollmentRepository.FindById(old(enrollments.rows), freshId).None?
              && writeOk && reply.enrolled == CountByCourseId(old(enrollments.rows), courseId) ==>
                && courseId in catalogEnrolled
                && catalogEnrolled[courseId]
                   == CountByCourseId(enrollments.rows, courseId) + (if r.Ok? then 0 else 1)
    {
      var student := FindStudentByStudentId(students.rows, studentId);
      if student.None? {
        return Err(NotFound("Student", studentId));
      }
      remoteLog := remoteLog + [GetCourse(courseId)];
      var guard := CourseGuard(enrollments.rows, courseId, studentId, reply);
      if guard.Some? {
        return Err(guard.value);
      }
      UpdateCourseEnrolledCount(courseId, reply.enrolled + 1, writeOk);
      ghost var before := enrollments.rows;
      r := SaveNew(courseId, studentId, freshId, now);
      if r.Ok? && EnrollmentRepository.FindById(before, freshId).None? {
        EnrollAddsOneActiveSeat(before, r.value);
      }
    }

    /**
     * `unenroll` of the counter variant: after the drop is saved the course
     * is fetched again and, when its `enrolled` is positive, that count
     * minus one is written back; every remote failure is swallowed.
     */
    method UnenrollWithCount(id: string, reply: CatalogReply, now: Timestamp, writeOk: bool)
      returns (r: Result<()>)
      requires Valid()
      modifies this, enrollments
      ensures Valid()
      ensures DropEnrollment(old(enrollments.rows), id).Err? ==>
                r == Err(DropEnrollment(old(enrollments.rows), id).failure)
                && enrollments.rows == old(enrollments.rows)
                && remoteLog == old(remoteLog) && catalogEnrolled == old(catalogEnrolled)
      ensures DropEnrollment(old(enrollments.rows), id).Ok? ==>
                var courseId := EnrollmentRepository.FindById(old(enrollments.rows), id).value.courseId;
                && r == Ok(())
                && enrollments.rows == DropEnrollment(old(enrollments.rows), id).value
                && (reply.CourseView? && reply.enrolled > 0 ==>
                      remoteLog == old(remoteLog) + [GetCourse(courseId), PutEnrolled(courseId, reply.enrolled - 1)]
                      && catalogEnrolled == if writeOk then old(catalogEnrolled)[courseId := reply.enrolled - 1]
                                            else old(catalogEnrolled))
                && (!(reply.CourseView? && reply.enrolled > 0) ==>
                      remoteLog == old(remoteLog) + [GetCourse(courseId)]
                      && catalogEnrolled == old(catalogEnrolled))
      ensures DropEnrollment(old(enrollments.rows), id).Ok? ==>
                var courseId := EnrollmentRepository.FindById(old(enrollments.rows), id).value.courseId;
                (writeOk && reply.CourseView? && reply.enrolled == CountByCourseId(old(enrollments.rows), courseId) ==>
                   && courseId in catalogEnrolled
                   && catalogEnrolled[courseId] == CountByCourseId(enrollments.rows, courseId))
    {
      var found := EnrollmentRepository.FindById(enrollments.rows, id);
      r := Unenroll(id, now);
      if r.Err? {
        return;
      }
      var courseId := found.value.courseId;
      DropReleasesOneSeat(old(enrollments.rows), id);
      remoteLog := remoteLog + [GetCourse(courseId)];
      if reply.CourseView? && reply.enrolled > 0 {
        UpdateCourseEnrolledCount(courseId, reply.enrolled - 1, writeOk);
      }
    }
  }

  // ----- properties of the enrollment bookkeeping -----

  /** Inserting an ACTIVE row takes one seat of its course and leaves every other course's count alone. */
  lemma {:induction false} EnrollAddsOneActiveSeat(t: seq<EnrollmentRow>, row: EnrollmentRow)
    requires row.status == Active
    ensures CountByCourseId(t + [row], row.courseId) == CountByCourseId(t, row.courseId) + 1
    ensures forall c :: c != row.courseId ==> CountByCourseId(t + [row], c) == CountByCourseId(t, c)
  {
    CountAppend(t, row, OfCourseWithStatus(row.courseId, Active));
    forall c | c != row.courseId
      ensures CountByCourseId(t + [row], c) == CountByCourseId(t, c)
    {
      CountAppend(t, row, OfCourseWithStatus(c, Active));
    }
  }

  /** After a successful enrollment, the same enrollment again is rejected as a duplicate. */
  lemma EnrollTwiceRejected(st: seq<Student>, t: seq<EnrollmentRow>, courseId: string, studentId: string,
                            reply: CatalogReply, freshId: string, now: Timestamp)
    requires EnrollGuard(st, t, courseId, studentId, reply).None?
    ensures EnrollGuard(st, t + [NewEnrollment(freshId, courseId, studentId, now)], courseId, studentId, reply)
            == Some(Business(AlreadyEnrolled))
  {
    var t' := t + [NewEnrollment(freshId, courseId, studentId, now)];
    ExistsByCourseIdAndStudentIdIff(t', courseId, studentId);
    assert t'[|t|].courseId == courseId && t'[|t|].studentId == studentId && t'[|t|].status == Active;
  }

  /** Dropping an enrollment frees exactly one seat of its course. */
  lemma {:induction false} DropReleasesOneSeat(t: seq<EnrollmentRow>, id: string)
    requires DropEnrollment(t, id).Ok?
    ensures var c := EnrollmentRepository.FindById(t, id).value.courseId;
            CountByCourseId(DropEnrollment(t, id).value, c) == CountByCourseId(t, c) - 1
  {
    var i := IndexWhere(t, HasId(id)).value;
    var c := t[i].courseId;
    CountUpdate(t, i, t[i].(status := Dropped), OfCourseWithStatus(c, Active));
  }

  /** A record that `unenroll` has dropped cannot be dropped again. */
  lemma UnenrollTwiceFails(t: seq<EnrollmentRow>, id: string)
    requires DropEnrollment(t, id).Ok?
    ensures DropEnrollment(DropEnrollment(t, id).value, id) == Err(Business(NotActive))
  {
    var i := IndexWhere(t, HasId(id)).value;
    var t' := t[i := t[i].(status := Dropped)];
    assert HasId(id)(t'[i]);
  }

  /**
   * The duplicate guard counts only ACTIVE rows, but the unique key covers
   * every status: once a student has dropped a course, enrolling again
   * passes every guard and is then rejected by the table.
   */
  lemma ReenrollAfterDropRejected(st: seq<Student>, t: seq<EnrollmentRow>, i: nat, reply: CatalogReply,
                                  freshId: string, now: Timestamp)
    requires TableValid(t) && i < |t| && t[i].status == Dropped
    requires ExistsByStudentId(st, t[i].studentId) && ParseLong(t[i].courseId).Some?
    requires reply.CourseView? && reply.enrolled < reply.capacity
    requires EnrollmentRepository.FindById(t, freshId).None?
    ensures EnrollGuard(st, t, t[i].courseId, t[i].studentId, reply).None?
    ensures PairTakenExcept(t, t[i].courseId, t[i].studentId, -1)
    ensures WriteRow(t, NewEnrollment(freshId, t[i].courseId, t[i].studentId, now))
            == Err(ConstraintViolation(PairKey))
  {
    var c, s := t[i].courseId, t[i].studentId;
    ExistsByCourseIdAndStudentIdIff(t, c, s);
    assert t[i].courseId == c && t[i].studentId == s;
  }

  /**
   * Enrolling and then unenrolling leaves exactly one record for the pair,
   * DROPPED, and no ACTIVE one.
   */
  lemma EnrollThenUnenroll(t: seq<EnrollmentRow>, courseId: string, studentId: string, freshId: string,
                           now: Timestamp)
    requires TableValid(t)
    requires EnrollmentRepository.FindById(t, freshId).None?
    requires !PairTakenExcept(t, courseId, studentId, -1)
    ensures var row := NewEnrollment(freshId, courseId, studentId, now);
            && DropEnrollment(t + [row], freshId) == Ok(t + [row.(status := Dropped)])
            && FindByCourseIdAndStudentIdAndStatus(t + [row.(status := Dropped)], courseId, studentId, Dropped)
               == Some(row.(status := Dropped))
            && !ExistsByCourseIdAndStudentId(t + [row.(status := Dropped)], courseId, studentId)
  {
    var row := NewEnrollment(freshId, courseId, studentId, now);
    var t1 := t + [row];
    var t2 := t + [row.(status := Dropped)];
    assert HasId(freshId)(t1[|t|]);
    assert IndexWhere(t1, HasId(freshId)) == Some(|t|);
    assert t1[|t| := row.(status := Dropped)] == t2;
    ExistsByCourseIdAndStudentIdIff(t2, courseId, studentId);
    assert OfPairWithStatus(courseId, studentId, Dropped)(t2[|t|]);
  }

  /**
   * The counter variant keeps the catalog's count equal to the number of
   * ACTIVE enrollments when it was equal before and the write succeeds: the
   * value `enroll` writes is the new count.
   */
  lemma EnrollWriteKeepsCounterInSync(t: seq<EnrollmentRow>, row: EnrollmentRow, fetched: int)
    requires row.status == Active && fetched == CountByCourseId(t, row.courseId)
    ensures fetched + 1 == CountByCourseId(t + [row], row.courseId)
  {
    EnrollAddsOneActiveSeat(t, row);
  }

  /**
   * When the fetched count equals the number of ACTIVE enrollments, the
   * `enrolled > 0` test of the variant's `unenroll` always passes, and the
   * value it writes is the new count.
   */
  lemma UnenrollWriteKeepsCounterInSync(t: seq<EnrollmentRow>, id: string, fetched: int)
    requires DropEnrollment(t, id).Ok?
    requires fetched == CountByCourseId(t, EnrollmentRepository.FindById(t, id).value.courseId)
    ensures fetched > 0
    ensures fetched - 1 == CountByCourseId(DropEnrollment(t, id).value, EnrollmentRepository.FindById(t, id).value.courseId)
  {
    DropReleasesOneSeat(t, id);
  }
}

=== FILE: gateway_filter.dfy ===
/**
 * The gateway's `JwtAuthenticationFilter`: a request whose path starts with
 * a whitelisted prefix passes untouched; any other request needs an
 * `Authorization: Bearer <token>` header whose token is valid and names a
 * user, and is then forwarded with the user's identity in three headers.
 * Token validation and claim extraction are parameters.
 */
module GatewayFilter {
  import opened Common
  import opened Strings

  /** One header line of a request. */
  datatype Header = Header(name: string, value: string)

  /** An incoming request: its path and its header lines in the order they arrived. */
  datatype Request = Request(path: string, headers: seq<Header>)

  /** What the filter does with a request: forward it (possibly rewritten) or answer with a status. */
  datatype Outcome = Forward(request: Request) | Respond(status: int)

  /** The claims a token carries; any of them may be absent. */
  datatype Claims = Claims(userId: Option<string>, username: Option<string>, role: Option<string>)

  const Unauthorized: int := 401
  const Authorization: string := "Authorization"
  const BearerPrefix: string := "Bearer "
  const UserIdHeader: string := "X-User-Id"
  const UsernameHeader: string := "X-Username"
  const RoleHeader: string := "X-User-Role"
  const DefaultRole: string := "USER"

  /** The paths that need no authentication. */
  const WhiteList: seq<string> := ["/api/auth/login", "/api/auth/register", "/actuator/health"]

  /** Header names are compared ignoring the case of their letters, letter by letter. */
  predicate SameName(a: string, b: string)
  {
    |a| == |b| && forall i :: 0 <= i < |a| ==> UpperChar(a[i]) == UpperChar(b[i])
  }

  /** Two names are the same name exactly when their upper-case forms are equal. */
  lemma SameNameIsUpperEqual(a: string, b: string)
    ensures SameName(a, b) <==> ToUpper(a) == ToUpper(b)
  {
    if ToUpper(a) == ToUpper(b) {
      forall i | 0 <= i < |a|
        ensures UpperChar(a[i]) == UpperChar(b[i])
      {
        assert ToUpper(a)[i] == ToUpper(b)[i];
      }
    }
  }

  /** A line under `a` is not under `b` when `a` and `b` are different names. */
  lemma SameNameExcludes(x: string, a: string, b: string)
    requires SameName(x, a) && !SameName(b, a)
    ensures !SameName(x, b)
  {
    if |b| == |a| {
      var i :| 0 <= i < |a| && UpperChar(b[i]) != UpperChar(a[i]);
      assert UpperChar(x[i]) == UpperChar(a[i]);
    }
  }

  /** A name under another spelling picks out the same header lines. */
  lemma SameNameSwap(x: string, a: string, b: string)
    requires SameName(a, b)
    ensures SameName(x, a) <==> SameName(x, b)
  {
  }

  /** `headers.getFirst(name)`: the value of the first line under the name in any spelling, or null. */
  function FirstHeader(hs: seq<Header>, name: string): (v: Option<string>)
    ensures v.None? <==> forall i :: 0 <= i < |hs| ==> !SameName(hs[i].name, name)
    ensures v.Some? ==>
              exists i :: && 0 <= i < |hs| && SameName(hs[i].name, name) && hs[i].value == v.value
                          && (forall j :: 0 <= j < i ==> !SameName(hs[j].name, name))
  {
    if hs == [] then None
    else if SameName(hs[0].name, name) then Some(hs[0].value)
    else
      var v := FirstHeader(hs[1..], name);
      if v.Some? then
        var i :| && 0 <= i < |hs[1..]| && SameName(hs[1..][i].name, name) && hs[1..][i].value == v.value
                 && (forall j :: 0 <= j < i ==> !SameName(hs[1..][j].name, name));
        assert hs[i + 1] == hs[1..][i];
        v
      else v
  }

  /** The header lines that are not under `name` in any spelling, in order. */
  function Without(hs: seq<Header>, name: string): (r: seq<Header>)
    ensures forall i :: 0 <= i < |r| ==> !SameName(r[i].name, name)
    ensures forall h: Header :: !SameName(h.name, name) ==> (h in r <==> h in hs)
  {
    if hs == [] then []
    else if SameName(hs[0].name, name) then Without(hs[1..], name)
    else [hs[0]] + Without(hs[1..], name)
  }

  /** `prefixes.stream().anyMatch(path::startsWith)`. */
  function AnyPrefix(prefixes: seq<string>, path: string): (r: bool)
    ensures r <==> exists i :: 0 <= i < |prefixes| && StartsWith(path, prefixes[i])
    decreases |prefixes|
  {
    if prefixes == [] then false
    else StartsWith(path, prefixes[0]) || AnyPrefix(prefixes[1..], path)
  }

  /** `isWhiteList(path)`. */
  function IsWhiteList(path: string): (r: bool)
    ensures r <==> StartsWith(path, "/api/auth/login") || StartsWith(path, "/api/auth/register")
                   || StartsWith(path, "/actuator/health")
  {
    AnyPrefix(WhiteList, path)
  }

  /** Every line under `name`, in any spelling, carries `v`, and there is one. */
  predicate Carries(r: Request, name: string, v: string)
  {
    && FirstHeader(r.headers, name) == Some(v)
    && forall i :: 0 <= i < |r.headers| && SameName(r.headers[i].name, name) ==> r.headers[i].value == v
  }

  /**
   * `request.mutate().header(name, value)`: every line under the name, in
   * any spelling, is dropped and one line with exactly that value is added;
   * the other lines are kept.
   */
  function SetHeader(r: Request, name: string, value: string): (r': Request)
    ensures r'.path == r.path
    ensures Carries(r', name, value)
    ensures forall i :: 0 <= i < |r'.headers| && SameName(r'.headers[i].name, name) ==>
                          r'.headers[i] == Header(name, value)
    ensures forall h: Header :: !SameName(h.name, name) ==> (h in r'.headers <==> h in r.headers)
  {
    var kept := Without(r.headers, name);
    var r' := r.(headers := kept + [Header(name, value)]);
    assert r'.headers[|kept|] == Header(name, value);
    r'
  }

  /** What the lines under a name carry, they carry under every spelling of it. */
  lemma {:induction false} CarriesAnySpelling(r: Request, name: string, spelling: string, v: string)
    requires SameName(spelling, name)
    requires Carries(r, name, v)
    ensures Carries(r, spelling, v)
  {
    forall x: string ensures SameName(x, spelling) <==> SameName(x, name) {
      SameNameSwap(x, spelling, name);
    }
    var i :| 0 <= i < |r.headers| && SameName(r.headers[i].name, name) && r.headers[i].value == v;
    assert SameName(r.headers[i].name, spelling);
  }

  /** The three identity header names differ from each other in any spelling. */
  lemma IdentityNamesDistinct()
    ensures !SameName(UserIdHeader, UsernameHeader) && !SameName(UserIdHeader, RoleHeader)
    ensures !SameName(UsernameHeader, RoleHeader)
  {
    assert |ToUpper(UserIdHeader)| == 9 && |ToUpper(UsernameHeader)| == 10 && |ToUpper(RoleHeader)| == 11;
  }

  /** Setting one header leaves what the lines under another name carry as it was. */
  lemma {:induction false} SetHeaderKeepsCarries(r: Request, name: string, value: string, other: string, v: string)
    requires !SameName(name, other)
    requires Carries(r, other, v)
    ensures Carries(SetHeader(r, name, value), other, v)
  {
    var r' := SetHeader(r, name, value);
    forall i | 0 <= i < |r'.headers| && SameName(r'.headers[i].name, other)
      ensures r'.headers[i].value == v
    {
      SameNameExcludes(r'.headers[i].name, other, name);
      assert r'.headers[i] in r.headers;
    }
    var j :| 0 <= j < |r.headers| && SameName(r.headers[j].name, other) && r.headers[j].value == v;
    SameNameExcludes(r.headers[j].name, other, name);
    assert r.headers[j] in r'.headers;
  }

  /**
   * The three identity headers set in turn, as the filter's builder chain
   * does: each name ends up carrying its one value, whatever the client
   * sent under it, and every other line is kept.
   */
  function WithIdentity(r: Request, userId: string, username: string, role: string): (r': Request)
    ensures r'.path == r.path
    ensures Carries(r', UserIdHeader, userId)
    ensures Carries(r', UsernameHeader, username)
    ensures Carries(r', RoleHeader, role)
    ensures forall h: Header ::
              !SameName(h.name, UserIdHeader) && !SameName(h.name, UsernameHeader) && !SameName(h.name, RoleHeader)
              ==> (h in r'.headers <==> h in r.headers)
  {
    IdentityNamesDistinct();
    SetThreeHeaders(r, UserIdHeader, userId, UsernameHeader, username, RoleHeader, role);
    SetHeader(SetHeader(SetHeader(r, UserIdHeader, userId), UsernameHeader, username), RoleHeader, role)
  }

  /** Setting three distinct names in turn leaves each carrying its value and every other line kept. */
  lemma {:induction false} SetThreeHeaders(r: Request, n1: string, v1: string, n2: string, v2: string,
                                           n3: string, v3: string)
    requires !SameName(n1, n2) && !SameName(n1, n3) && !SameName(n2, n3)
    ensures var r' := SetHeader(SetHeader(SetHeader(r, n1, v1), n2, v2), n3, v3);
            && r'.path == r.path
            && Carries(r', n1, v1) && Carries(r', n2, v2) && Carries(r', n3, v3)
            && forall h: Header :: !SameName(h.name, n1) && !SameName(h.name, n2) && !SameName(h.name, n3)
                                   ==> (h in r'.headers <==> h in r.headers)
  {
    var r1 := SetHeader(r, n1, v1);
    var r2 := SetHeader(r1, n2, v2);
    SetHeaderKeepsCarries(r1, n2, v2, n1, v1);
    SetHeaderKeepsCarries(r2, n3, v3, n1, v1);
    SetHeaderKeepsCarries(r2, n3, v3, n2, v2);
  }

  /**
   * `filter`: whitelisted paths pass unchanged; then a missing header or
   * one without the "Bearer " prefix, a token `validate` refuses, or a
   * token without a user id or a username give 401; otherwise the request
   * is forwarded with X-User-Id, X-Username and X-User-Role set from the
   * claims, the role being "USER" when the token has none, and any line the
   * client sent under one of those names, in any spelling, dropped.
   */
  function Filter(r: Request, validate: string -> bool, claims: string -> Claims): (o: Outcome)
    ensures IsWhiteList(r.path) ==> o == Forward(r)
    ensures o.Respond? ==> o.status == Unauthorized
    ensures !IsWhiteList(r.path) ==>
              (o.Forward? <==>
                 && FirstHeader(r.headers, Authorization).Some?
                 && StartsWith(FirstHeader(r.headers, Authorization).value, BearerPrefix)
                 && (var token := FirstHeader(r.headers, Authorization).value[|BearerPrefix|..];
                     validate(token) && claims(token).userId.Some? && claims(token).username.Some?))
    ensures !IsWhiteList(r.path) && o.Forward? ==>
              var token := FirstHeader(r.headers, Authorization).value[|BearerPrefix|..];
              var c := claims(token);
              && BearerPrefix + token == FirstHeader(r.headers, Authorization).value
              && o.request.path == r.path
              && Carries(o.request, UserIdHeader, c.userId.value)
              && Carries(o.request, UsernameHeader, c.username.value)
              && Carries(o.request, RoleHeader, if c.role.Some? then c.role.value else DefaultRole)
              && (forall h: Header ::
                    !SameName(h.name, UserIdHeader) && !SameName(h.name, UsernameHeader) && !SameName(h.name, RoleHeader)
                    ==> (h in o.request.headers <==> h in r.headers))
  {
    if IsWhiteList(r.path) then Forward(r)
    else
      var auth := FirstHeader(r.headers, Authorization);
      if auth.None? || !StartsWith(auth.value, BearerPrefix) then Respond(Unauthorized)
      else
        var token := auth.value[|BearerPrefix|..];
        assert BearerPrefix + token == auth.value;
        if !validate(token) then Respond(Unauthorized)
        else
          var c := claims(token);
          if c.userId.None? || c.username.None? then Respond(Unauthorized)
          else
            Forward(WithIdentity(r, c.userId.value, c.username.value,
                                 if c.role.Some? then c.role.value else DefaultRole))
  }

  /** Whitelisting is a prefix test: anything appended to a whitelisted path is whitelisted too. */
  lemma WhiteListExtends(path: string, tail: string)
    requires IsWhiteList(path)
    ensures IsWhiteList(path + tail)
  {
    if StartsWith(path, "/api/auth/login") {
      StartsWithExtend(path, "/api/auth/login", tail);
    } else if StartsWith(path, "/api/auth/register") {
      StartsWithExtend(path, "/api/auth/register", tail);
    } else {
      StartsWithExtend(path, "/actuator/health", tail);
    }
  }

  /** Two paths that are not login endpoints are still whitelisted, and an ordinary API path is not. */
  lemma WhiteListExamples()
    ensures IsWhiteList("/api/auth/login/x")
    ensures IsWhiteList("/api/auth/loginAsAnyone")
    ensures !IsWhiteList("/api/courses")
  {
    DropPrefix("/api/auth/login", "/x");
    DropPrefix("/api/auth/login", "AsAnyone");
  }

  /**
   * Identity headers a client sends itself on a protected path never reach
   * a service: whatever the spelling of the name, every line forwarded
   * under X-User-Id carries the token's user id.
   */
  lemma ForgedIdentityReplaced(r: Request, spelling: string, forged: string,
                               validate: string -> bool, claims: string -> Claims)
    requires !IsWhiteList(r.path)
    requires SameName(spelling, UserIdHeader) && Header(spelling, forged) in r.headers
    requires Filter(r, validate, claims).Forward?
    ensures var token := FirstHeader(r.headers, Authorization).value[|BearerPrefix|..];
            var out := Filter(r, validate, claims).request;
            && FirstHeader(out.headers, spelling) == Some(claims(token).userId.value)
            && (Header(spelling, forged) in out.headers ==> forged == claims(token).userId.value)
  {
    var token := FirstHeader(r.headers, Authorization).value[|BearerPrefix|..];
    var out := Filter(r, validate, claims).request;
    CarriesAnySpelling(out, UserIdHeader, spelling, claims(token).userId.value);
  }

  /** A bearer token the validator accepts, with a user id and a username, is always let through. */
  lemma ValidTokenForwarded(path: string, token: string, validate: string -> bool, claims: string -> Claims)
    requires validate(token) && claims(token).userId.Some? && claims(token).username.Some?
    ensures Filter(Request(path, [Header(Authorization, BearerPrefix + token)]), validate, claims).Forward?
  {
    DropPrefix(BearerPrefix, token);
  }

  /** A header in another scheme is refused on a protected path, whatever the validator says. */
  lemma BasicSchemeRefused(path: string, credentials: string, validate: string -> bool, claims: string -> Claims)
    requires !IsWhiteList(path)
    ensures Filter(Request(path, [Header(Authorization, "Basic " + credentials)]), validate, claims)
            == Respond(Unauthorized)
  {
    var header := "Basic " + credentials;
    assert header[1] == 'a' && BearerPrefix[1] == 'e';
    assert !StartsWith(header, BearerPrefix);
  }
}

=== FILE: strings.dfy ===
/**
 * The string operations the services rely on: prefix tests (`startsWith`),
 * case-insensitive containment (`LIKE %k%` with `UPPER`) and the decimal
 * form of a Java `long` (`Long.parseLong` and `Long.toString`).
 * Case folding covers the ASCII letters only.
 */
module Strings {
  import opened Common

  /** `s.startsWith(prefix)`. */
  predicate StartsWith(s: string, prefix: string)
  {
    |prefix| <= |s| && s[..|prefix|] == prefix
  }

  /** A string keeps every prefix it has when more text is appended to it. */
  lemma StartsWithExtend(s: string, prefix: string, tail: string)
    requires StartsWith(s, prefix)
    ensures StartsWith(s + tail, prefix)
  {
    assert (s + tail)[..|prefix|] == s[..|prefix|];
  }

  /** `s.substring(n)` of a string that starts with `prefix`, where `n == |prefix|`, undoes the concatenation. */
  lemma DropPrefix(prefix: string, rest: string)
    ensures StartsWith(prefix + rest, prefix)
    ensures (prefix + rest)[|prefix|..] == rest
  {
    assert (prefix + rest)[..|prefix|] == prefix;
  }

  function UpperChar(c: char): char
  {
    if 'a' <= c <= 'z' then (c as int - 32) as char else c
  }

  /**
   * Upper-case form of `s`: same length, each ASCII small letter replaced by
   * its capital, other characters kept.
   */
  function ToUpper(s: string): (r: string)
    ensures |r| == |s|
    ensures forall i :: 0 <= i < |r| ==> !('a' <= r[i] <= 'z')
    ensures forall i :: 0 <= i < |r| && 'a' <= s[i] <= 'z' ==> r[i] as int == s[i] as int - ('a' as int - 'A' as int)
    ensures forall i :: 0 <= i < |r| && !('a' <= s[i] <= 'z') ==> r[i] == s[i]
  {
    seq(|s|, i requires 0 <= i < |s| => UpperChar(s[i]))
  }

  /** Upper-casing twice is upper-casing once. */
  lemma ToUpperIdempotent(s: string)
    ensures ToUpper(ToUpper(s)) == ToUpper(s)
  {
  }

  /** `k` occurs in `s` starting at position `i`. */
  predicate OccursAt(s: string, k: string, i: int)
  {
    0 <= i <= |s| - |k| && s[i..i + |k|] == k
  }

  /** `k` occurs in `s` at some position. */
  predicate Contains(s: string, k: string)
  {
    exists i | 0 <= i <= |s| - |k| :: OccursAt(s, k, i)
  }

  /** `UPPER(s) LIKE UPPER('%' + k + '%')`, the query an `...IgnoreCase` derived finder runs. */
  predicate ContainsIgnoreCase(s: string, k: string)
  {
    Contains(ToUpper(s), ToUpper(k))
  }

  /** An empty keyword matches every string. */
  lemma EmptyKeywordMatches(s: string)
    ensures ContainsIgnoreCase(s, "")
  {
    assert OccursAt(ToUpper(s), ToUpper(""), 0);
  }

  /** Containment ignoring case does not depend on the case of the keyword. */
  lemma ContainsIgnoreCaseOfUpper(s: string, k: string)
    ensures ContainsIgnoreCase(s, ToUpper(k)) == ContainsIgnoreCase(s, k)
  {
    ToUpperIdempotent(k);
  }

  predicate IsDigit(c: char)
  {
    '0' <= c <= '9'
  }

  predicate AllDigits(s: string)
  {
    forall i :: 0 <= i < |s| ==> IsDigit(s[i])
  }

  /** The value of a string of decimal digits, most significant first. */
  function DigitsValue(s: string): nat
    requires AllDigits(s)
    decreases |s|
  {
    if s == [] then 0
    else 10 * DigitsValue(s[..|s| - 1]) + (s[|s| - 1] as int - '0' as int)
  }

  /** The range of a Java `long`. */
  const LongMin: int := -0x8000_0000_0000_0000
  const LongMax: int := 0x7fff_ffff_ffff_ffff

  /**
   * `Long.parseLong(s)`: an optional `-` or `+` sign followed by at least one
   * decimal digit, with a value inside the `long` range; anything else is a
   * `NumberFormatException`, here `None`.
   */
  function ParseLong(s: string): (r: Option<int>)
    ensures r.Some? ==> LongMin <= r.value <= LongMax
    ensures r.Some? ==> 0 < |s| && forall i :: 1 <= i < |s| ==> IsDigit(s[i])
    ensures r.Some? && 0 < |s| ==> IsDigit(s[0]) || (1 < |s| && (s[0] == '-' || s[0] == '+'))
    ensures 0 < |s| && AllDigits(s) ==>
              r == if DigitsValue(s) <= LongMax then Some(DigitsValue(s)) else None
    ensures 1 < |s| && s[0] == '+' && AllDigits(s[1..]) ==>
              r == if DigitsValue(s[1..]) <= LongMax then Some(DigitsValue(s[1..])) else None
    ensures 1 < |s| && s[0] == '-' && AllDigits(s[1..]) ==>
              r == if DigitsValue(s[1..]) <= -LongMin then Some(0 - DigitsValue(s[1..]) as int) else None
  {
    if s == [] then None
    else
      var body := if s[0] == '-' || s[0] == '+' then s[1..] else s;
      if body == [] || !AllDigits(body) then None
      else
        var v: int := if s[0] == '-' then 0 - DigitsValue(body) as int else DigitsValue(body);
        if LongMin <= v <= LongMax then Some(v) else None
  }

  function Digit(d: nat): char
    requires d < 10
  {
    ('0' as int + d) as char
  }

  /** The decimal digits of `n`, without leading zeros. */
  function DecimalString(n: nat): (r: string)
    ensures r != [] && AllDigits(r)
    decreases n
  {
    if n < 10 then [Digit(n)] else DecimalString(n / 10) + [Digit(n % 10)]
  }

  /** `Long.toString(v)` (also `String.valueOf` of a boxed `Long`). */
  function LongToString(v: int): string
  {
    if v < 0 then "-" + DecimalString(-v) else DecimalString(v)
  }

  lemma {:induction false} DecimalStringValue(n: nat)
    ensures DigitsValue(DecimalString(n)) == n
    decreases n
  {
    if n >= 10 {
      var s := DecimalString(n);
      var front := DecimalString(n / 10);
      assert s[..|s| - 1] == front;
      DecimalStringValue(n / 10);
    }
  }

  /** Parsing the decimal form of any `long` gives that `long` back. */
  lemma ParseLongOfLongToString(v: int)
    requires LongMin <= v <= LongMax
    ensures ParseLong(LongToString(v)) == Some(v)
  {
    if v < 0 {
      var s := LongToString(v);
      assert s[1..] == DecimalString(-v);
      DecimalStringValue(-v);
    } else {
      DecimalStringValue(v);
    }
  }

  /**
   * A random UUID string (36 characters, a `-` at position 8) never parses
   * as a `long`.
   */
  lemma UuidIsNotALong(s: string)
    requires |s| == 36 && s[8] == '-'
    ensures ParseLong(s) == None
  {
  }
}

=== FILE: student_service.dfy ===
/**
 * The `students` table and `StudentService`: create, update and delete with
 * the uniqueness checks on the student number and the e-mail address, and
 * the refusal to delete a student who still holds an ACTIVE enrollment.
 */
module StudentService {
  import opened Common
  import opened Tables
  import opened EnrollmentEntity
  import opened EnrollmentRepository

  /** A `Student`; `createdAt` is null until the row is first persisted. */
  datatype Student = Student(
    id: string,
    studentId: string,
    name: string,
    major: string,
    grade: int,
    email: string,
    createdAt: Option<Timestamp>)

  function StudentHasId(id: string): Student -> bool
  {
    (s: Student) => s.id == id
  }

  function StudentHasStudentId(studentId: string): Student -> bool
  {
    (s: Student) => s.studentId == studentId
  }

  // ----- the `students` table -----

  /** Primary key, the unique indexes on student number and e-mail, and a creation time on every row. */
  ghost predicate StudentsValid(t: seq<Student>)
  {
    && (forall i, j :: 0 <= i < j < |t| ==> t[i].id != t[j].id)
    && (forall i, j :: 0 <= i < j < |t| ==> t[i].studentId != t[j].studentId)
    && (forall i, j :: 0 <= i < j < |t| ==> t[i].email != t[j].email)
    && (forall i :: 0 <= i < |t| ==> t[i].createdAt.Some?)
  }

  /** `findById`. */
  function FindStudentById(t: seq<Student>, id: string): (r: Option<Student>)
    ensures r.Some? ==> r.value in t && r.value.id == id
    ensures r.None? <==> forall i :: 0 <= i < |t| ==> t[i].id != id
  {
    match IndexWhere(t, StudentHasId(id))
    case None => None
    case Some(i) => Some(t[i])
  }

  /** `findByStudentId`. */
  function FindStudentByStudentId(t: seq<Student>, studentId: string): (r: Option<Student>)
    ensures r.Some? ==> r.value in t && r.value.studentId == studentId
    ensures r.None? <==> forall i :: 0 <= i < |t| ==> t[i].studentId != studentId
  {
    match IndexWhere(t, StudentHasStudentId(studentId))
    case None => None
    case Some(i) => Some(t[i])
  }

  /** `existsByStudentId`. */
  predicate ExistsByStudentId(t: seq<Student>, studentId: string)
  {
    exists i | 0 <= i < |t| :: t[i].studentId == studentId
  }

  /** `existsByEmail`. */
  predicate ExistsByEmail(t: seq<Student>, email: string)
  {
    exists i | 0 <= i < |t| :: t[i].email == email
  }

  /** Some row other than position `except` has the student number. */
  predicate StudentIdTakenExcept(t: seq<Student>, studentId: string, except: int)
  {
    exists j | 0 <= j < |t| :: j != except && t[j].studentId == studentId
  }

  /** Some row other than position `except` has the e-mail address. */
  predicate EmailTakenExcept(t: seq<Student>, email: string, except: int)
  {
    exists j | 0 <= j < |t| :: j != except && t[j].email == email
  }

  /**
   * Writing the row `s`: an insert for a new id, a replacement of the row
   * with that id otherwise; the unique indexes reject a student number or an
   * e-mail address held by another row.
   */
  function WriteStudent(t: seq<Student>, s: Student): (res: Result<seq<Student>>)
    requires s.createdAt.Some?
    ensures StudentsValid(t) && res.Ok? ==> StudentsValid(res.value)
    ensures res.Ok? ==> s in res.value
    ensures res.Ok? && (forall i :: 0 <= i < |t| ==> t[i].id != s.id) ==> res.value == t + [s]
    ensures res.Ok? <==> !StudentIdTakenExcept(t, s.studentId, IndexOr(t, s.id))
                         && !EmailTakenExcept(t, s.email, IndexOr(t, s.id))
  {
    var at := IndexOr(t, s.id);
    if StudentIdTakenExcept(t, s.studentId, at) then Err(ConstraintViolation("idx_student_id"))
    else if EmailTakenExcept(t, s.email, at) then Err(ConstraintViolation("idx_email"))
    else if at < 0 then Ok(t + [s])
    else
      assert t[at := s][at] == s;
      Ok(t[at := s])
  }

  /** The position of the row with that id, or -1. */
  function IndexOr(t: seq<Student>, id: string): (k: int)
    ensures -1 <= k < |t|
    ensures k >= 0 ==> t[k].id == id
    ensures k < 0 <==> forall i :: 0 <= i < |t| ==> t[i].id != id
  {
    match IndexWhere(t, StudentHasId(id))
    case None => -1
    case Some(i) => i
  }

  /** A mutable `students` table. */
  class StudentTable {
    var rows: seq<Student>

    ghost predicate Valid()
      reads this
    {
      StudentsValid(rows)
    }

    constructor ()
      ensures Valid() && rows == []
    {
      rows := [];
    }

    /**
     * `save(s)`: a new id is inserted with `createdAt` defaulted to now by
     * `onCreate`; a known id is merged and `created_at`, not updatable, keeps
     * its stored value.
     */
    method Save(s: Student, now: Timestamp) returns (res: Result<Student>)
      requires Valid()
      modifies this
      ensures Valid()
      ensures res.Err? ==> rows == old(rows) && res.failure.ConstraintViolation?
      ensures res.Ok? ==> res.value.id == s.id && res.value.studentId == s.studentId
                          && res.value.email == s.email && res.value in rows
      ensures res.Ok? && IndexOr(old(rows), s.id) < 0 ==>
                rows == old(rows) + [res.value]
                && res.value == s.(createdAt := if s.createdAt.Some? then s.createdAt else Some(now))
      ensures res.Ok? && IndexOr(old(rows), s.id) >= 0 ==>
                var i := IndexOr(old(rows), s.id);
                rows == old(rows)[i := res.value] && res.value == s.(createdAt := old(rows)[i].createdAt)
      ensures res.Ok? <==> !StudentIdTakenExcept(old(rows), s.studentId, IndexOr(old(rows), s.id))
                           && !EmailTakenExcept(old(rows), s.email, IndexOr(old(rows), s.id))
    {
      var at := IndexOr(rows, s.id);
      var row;
      if at < 0 {
        row := s.(createdAt := if s.createdAt.Some? then s.createdAt else Some(now));
      } else {
        row := s.(createdAt := rows[at].createdAt);
      }
      var written := WriteStudent(rows, row);
      if written.Err? {
        return Err(written.failure);
      }
      if at >= 0 {
        assert written.value == rows[at := row];
      }
      rows := written.value;
      res := Ok(row);
    }
  }

  // ----- the service -----

  class StudentService {
    const students: StudentTable
    const enrollments: EnrollmentTable

    ghost predicate Valid()
      reads this, students, enrollments
    {
      students.Valid() && enrollments.Valid()
    }

    constructor (students: StudentTable, enrollments: EnrollmentTable)
      ensures this.students == students && this.enrollments == enrollments
    {
      this.students := students;
      this.enrollments := enrollments;
    }

    /** `findById`: the student with that primary key, or NotFound. */
    function FindById(id: string): (r: Result<Student>)
      reads this, students
      ensures r.Ok? ==> r.value in students.rows && r.value.id == id
      ensures r.Err? <==> forall i :: 0 <= i < |students.rows| ==> students.rows[i].id != id
      ensures r.Err? ==> r.failure == NotFound("Student", id)
    {
      match FindStudentById(students.rows, id)
      case None => Err(NotFound("Student", id))
      case Some(s) => Ok(s)
    }

    /** `findByStudentId`: the student with that student number, or NotFound. */
    function FindByStudentId(studentId: string): (r: Result<Student>)
      reads this, students
      ensures r.Ok? ==> r.value in students.rows && r.value.studentId == studentId
      ensures r.Err? <==> !ExistsByStudentId(students.rows, studentId)
      ensures r.Err? ==> r.failure == NotFound("Student", "studentId: " + studentId)
    {
      match FindStudentByStudentId(students.rows, studentId)
      case None => Err(NotFound("Student", "studentId: " + studentId))
      case Some(s) => Ok(s)
    }

    /**
     * `create`: refused when the student number or the e-mail address is
     * already in use; otherwise the student is saved.
     */
    method Create(s: Student, now: Timestamp) returns (r: Result<Student>)
      requires Valid()
      modifies students
      ensures Valid()
      ensures ExistsByStudentId(old(students.rows), s.studentId) ==>
                r == Err(Business(StudentIdTaken(s.studentId))) && students.rows == old(students.rows)
      ensures !ExistsByStudentId(old(students.rows), s.studentId) && ExistsByEmail(old(students.rows), s.email) ==>
                r == Err(Business(EmailTaken(s.email))) && students.rows == old(students.rows)
      ensures !ExistsByStudentId(old(students.rows), s.studentId) && !ExistsByEmail(old(students.rows), s.email)
              && IndexOr(old(students.rows), s.id) < 0 ==>
                r.Ok? && students.rows == old(students.rows) + [r.value]
                && r.value == s.(createdAt := if s.createdAt.Some? then s.createdAt else Some(now))
      ensures !ExistsByStudentId(old(students.rows), s.studentId) && !ExistsByEmail(old(students.rows), s.email)
              && IndexOr(old(students.rows), s.id) >= 0 ==>
                var i := IndexOr(old(students.rows), s.id);
                r.Ok? && students.rows == old(students.rows)[i := r.value]
                && r.value == s.(createdAt := old(students.rows)[i].createdAt)
      ensures r.Ok? ==> r.value in students.rows && r.value.studentId == s.studentId
    {
      if ExistsByStudentId(students.rows, s.studentId) {
        return Err(Business(StudentIdTaken(s.studentId)));
      }
      if ExistsByEmail(students.rows, s.email) {
        return Err(Business(EmailTaken(s.email)));
      }
      r := students.Save(s, now);
    }

    /**
     * `update`: NotFound for an unknown id; the student number and the e-mail
     * address are checked for uniqueness only when they change; the stored
     * row is replaced by the given student carrying the original id and
     * creation time.
     */
    method Update(id: string, s: Student, now: Timestamp) returns (r: Result<Student>)
      requires Valid()
      modifies students
      ensures Valid()
      ensures r.Err? ==> students.rows == old(students.rows)
      ensures IndexOr(old(students.rows), id) < 0 ==> r == Err(NotFound("Student", id))
      ensures IndexOr(old(students.rows), id) >= 0 ==>
                var i := IndexOr(old(students.rows), id);
                var existing := old(students.rows)[i];
                && (existing.studentId != s.studentId && ExistsByStudentId(old(students.rows), s.studentId) ==>
                      r == Err(Business(StudentIdTaken(s.studentId))))
                && (((existing.studentId == s.studentId || !ExistsByStudentId(old(students.rows), s.studentId))
                     && existing.email != s.email && ExistsByEmail(old(students.rows), s.email))
                    ==> r == Err(Business(EmailTaken(s.email))))
                && (r.Ok? ==> r.value == s.(id := id, createdAt := existing.createdAt)
                              && students.rows == old(students.rows)[i := r.value])
                && (((existing.studentId == s.studentId || !ExistsByStudentId(old(students.rows), s.studentId))
                     && (existing.email == s.email || !ExistsByEmail(old(students.rows), s.email)))
                    ==> r.Ok?)
    {
      var i := IndexOr(students.rows, id);
      if i < 0 {
        return Err(NotFound("Student", id));
      }
      var existing := students.rows[i];
      if existing.studentId != s.studentId {
        if ExistsByStudentId(students.rows, s.studentId) {
          return Err(Business(StudentIdTaken(s.studentId)));
        }
      }
      if existing.email != s.email {
        if ExistsByEmail(students.rows, s.email) {
          return Err(Business(EmailTaken(s.email)));
        }
      }
      var incoming := s.(id := id, createdAt := existing.createdAt);
      r := students.Save(incoming, now);
    }

    /**
     * `deleteById`: NotFound for an unknown id; refused while the student
     * holds an ACTIVE enrollment; otherwise the row is removed.
     */
    method DeleteById(id: string) returns (r: Result<()>)
      requires Valid()
      modifies students
      ensures Valid()
      ensures r.Err? ==> students.rows == old(students.rows)
      ensures IndexOr(old(students.rows), id) < 0 ==> r == Err(NotFound("Student", id))
      ensures IndexOr(old(students.rows), id) >= 0 ==>
                var i := IndexOr(old(students.rows), id);
                var active := CountByStudentIdAndStatus(enrollments.rows, old(students.rows)[i].studentId, Active);
                && (active > 0 ==> r == Err(Business(HasActiveEnrollments)))
                && (active == 0 ==> r == Ok(()) && students.rows == RemoveAt(old(students.rows), i))
    {
      var i := IndexOr(students.rows, id);
      if i < 0 {
        return Err(NotFound("Student", id));
      }
      var activeCount := CountByStudentIdAndStatus(enrollments.rows, students.rows[i].studentId, Active);
      if activeCount > 0 {
        return Err(Business(HasActiveEnrollments));
      }
      students.rows := RemoveAt(students.rows, i);
      r := Ok(());
    }
  }

  // ----- referential consistency between the two tables -----

  /** Every ACTIVE enrollment names the student number of an existing student. */
  ghost predicate ActiveRowsHaveStudents(st: seq<Student>, t: seq<EnrollmentRow>)
  {
    forall i :: 0 <= i < |t| && t[i].status == Active ==> ExistsByStudentId(st, t[i].studentId)
  }

  /** Deleting a student with no ACTIVE enrollment keeps every ACTIVE enrollment attached to a student. */
  lemma {:induction false} DeleteKeepsActiveRowsAttached(st: seq<Student>, t: seq<EnrollmentRow>, i: nat)
    requires StudentsValid(st) && i < |st|
    requires ActiveRowsHaveStudents(st, t)
    requires CountByStudentIdAndStatus(t, st[i].studentId, Active) == 0
    ensures ActiveRowsHaveStudents(RemoveAt(st, i), t)
  {
    var rest := RemoveAt(st, i);
    forall k | 0 <= k < |t| && t[k].status == Active
      ensures ExistsByStudentId(rest, t[k].studentId)
    {
      CountPositive(t, OfStudentWithStatus(st[i].studentId, Active));
      assert !OfStudentWithStatus(st[i].studentId, Active)(t[k]);
      var j :| 0 <= j < |st| && st[j].studentId == t[k].studentId;
      assert j != i;
      if j < i {
        assert rest[j] == st[j];
      } else {
        assert rest[j - 1] == st[j];
      }
    }
  }

  /**
   * `update` checks only that a new student number is unused; it does not
   * look at enrollments. The table `Update` leaves on success is the one
   * below (with `id` the stored id), and `Update` succeeds whenever the new
   * number and e-mail address are free, so renumbering any student who
   * holds an ACTIVE enrollment leaves that enrollment naming no student.
   */
  lemma {:induction false} RenumberingOrphansActiveEnrollment(st: seq<Student>, t: seq<EnrollmentRow>, i: nat,
                                                              s: Student, k: nat)
    requires StudentsValid(st) && i < |st|
    requires k < |t| && t[k].status == Active && t[k].studentId == st[i].studentId
    requires s.studentId != st[i].studentId
    ensures !ActiveRowsHaveStudents(st[i := s.(id := st[i].id, createdAt := st[i].createdAt)], t)
  {
    var after := st[i := s.(id := st[i].id, createdAt := st[i].createdAt)];
    forall j | 0 <= j < |after|
      ensures after[j].studentId != t[k].studentId
    {
      if j != i {
        assert after[j] == st[j];
      }
    }
  }
}

=== FILE: tables.dfy ===
/**
 * A repository table is a sequence of rows in insertion order. The derived
 * queries of Spring Data repositories are filters, counts and first-match
 * lookups over that sequence; this module defines them once and proves how
 * they relate.
 */
module Tables {
  import opened Common

  /** The rows that satisfy `p`, in table order (a `List` query). */
  function Filter<T(==)>(s: seq<T>, p: T -> bool): (r: seq<T>)
    ensures |r| <= |s|
    ensures forall i :: 0 <= i < |r| ==> r[i] in s && p(r[i])
    ensures forall i :: 0 <= i < |s| && p(s[i]) ==> s[i] in r
  {
    if s == [] then []
    else if p(s[0]) then [s[0]] + Filter(s[1..], p)
    else Filter(s[1..], p)
  }

  /** The number of rows that satisfy `p` (a `COUNT` query). */
  function Count<T>(s: seq<T>, p: T -> bool): nat
  {
    if s == [] then 0
    else (if p(s[0]) then 1 else 0) + Count(s[1..], p)
  }

  /** The position of the first row that satisfies `p` (an `Optional` query). */
  function IndexWhere<T>(s: seq<T>, p: T -> bool): (r: Option<nat>)
    ensures r.Some? ==> r.value < |s| && p(s[r.value])
    ensures r.Some? ==> forall j :: 0 <= j < r.value ==> !p(s[j])
    ensures r.None? <==> forall j :: 0 <= j < |s| ==> !p(s[j])
  {
    if s == [] then None
    else if p(s[0]) then Some(0)
    else match IndexWhere(s[1..], p)
      case None => None
      case Some(k) => Some(k + 1)
  }

  /** The table without the row at position `i` (a delete by key). */
  function RemoveAt<T>(s: seq<T>, i: nat): (r: seq<T>)
    requires i < |s|
    ensures |r| == |s| - 1
    ensures forall j :: 0 <= j < i ==> r[j] == s[j]
    ensures forall j :: i <= j < |r| ==> r[j] == s[j + 1]
  {
    s[..i] + s[i + 1..]
  }

  /** A count query returns the length of the matching list query. */
  lemma {:induction false} CountIsFilterLength<T>(s: seq<T>, p: T -> bool)
    ensures Count(s, p) == |Filter(s, p)|
  {
    if s != [] {
      CountIsFilterLength(s[1..], p);
    }
  }

  /** `COUNT(...) > 0` holds exactly when some row matches. */
  lemma {:induction false} CountPositive<T>(s: seq<T>, p: T -> bool)
    ensures Count(s, p) > 0 <==> exists i :: 0 <= i < |s| && p(s[i])
  {
    if s != [] {
      CountPositive(s[1..], p);
      if Count(s[1..], p) > 0 {
        var i :| 0 <= i < |s[1..]| && p(s[1..][i]);
        assert p(s[i + 1]);
      }
      if p(s[0]) {
        assert 0 <= 0 < |s| && p(s[0]);
      } else if exists i :: 0 <= i < |s| && p(s[i]) {
        var i :| 0 <= i < |s| && p(s[i]);
        assert i != 0 && p(s[1..][i - 1]);
      }
    }
  }

  /** Appending a row raises the count by one exactly when the row matches. */
  lemma {:induction false} CountAppend<T>(s: seq<T>, x: T, p: T -> bool)
    ensures Count(s + [x], p) == Count(s, p) + (if p(x) then 1 else 0)
  {
    if s == [] {
      assert s + [x] == [x];
    } else {
      assert (s + [x])[1..] == s[1..] + [x];
      CountAppend(s[1..], x, p);
    }
  }

  /** Replacing the row at `i` changes the count by the change of that row alone. */
  lemma {:induction false} CountUpdate<T>(s: seq<T>, i: nat, x: T, p: T -> bool)
    requires i < |s|
    ensures Count(s[i := x], p)
            == Count(s, p) - (if p(s[i]) then 1 else 0) + (if p(x) then 1 else 0)
  {
    if i > 0 {
      assert s[i := x][1..] == s[1..][i - 1 := x];
      CountUpdate(s[1..], i - 1, x, p);
    } else {
      assert s[i := x][1..] == s[1..];
    }
  }
}
